=== FILE: README.md ===
# Trading bot back end — a Dafny model

This project models the logic of a small FastAPI back end that trades on Binance. It covers four pieces:

- **Bot controller.** A lifecycle over `stopped`, `running` and `error`, plus one strategy step per loop pass:
  - the step pushes the fetched price into a 100-entry history;
  - it classifies the percentage move as a buy signal, a sell signal or analysis only.
- **Wallet registry.** Wallets are keyed by an id derived from the last eight characters of the API key:
  - the id is the Base64 text of their UTF-8 bytes;
  - the views hide the credentials;
  - the balance listing keeps only non-zero assets.
- **Order service.**
  - Routes MARKET and LIMIT/GTC orders.
  - Keeps a local order history keyed by `str(orderId)`.
  - Lists orders newest first.
  - Normalises exchange replies into order responses, with a fallback when that conversion fails.
  - Wraps every failure in a `BinanceAPIException`.
- **Request models and settings.** The order and bot enums, the pydantic field validators and their defaults, and the `BINANCE_TESTNET` flag parser.

Modelling choices:

- **No I/O in the model.** Everything the exchange, Fernet or the clock would produce is passed in as a parameter:
  - an exchange reply, or the text of the exception it raised;
  - a Fernet token;
  - a clock reading;
  - the connection probe's outcome;
  - the price fetched on a loop pass.
- **Arithmetic.** Prices, amounts and percentages are mathematical reals.
- **Python semantics.** `dict.get`, truthiness, `str(...)` and `float(...)` are written out explicitly (module `Exchange`).
  - Decimal-text parsing is a parameter.
  - Dict insertion order is kept for the wallet registry.
- **Pydantic.** Validators follow pydantic v2, the version `pydantic_settings` needs:
  - a validator does not run on a field's default;
  - every failing field is reported.
- **Bot thread.** It is replaced by the sequence of events it can observe:
  - `start`;
  - `stop`;
  - a loop pass (`TickEvent`);
  - an exception reaching a loop handler (`FaultEvent`).

Files:

| file | module | contents |
|---|---|---|
| `wrappers.dfy` | `Wrappers` | `Option`, `Result` |
| `text.dfy` | `Text` | ASCII case mapping, slicing, Python's `str(int)` |
| `encoding.dfy` | `Encoding` | UTF-8 and Base64 with decoders, proved injective |
| `exchange.dfy` | `Exchange` | exchange dict values, `get`, truthiness, `str`, `float` |
| `validation.dfy` | `Validation` | pydantic field errors |
| `config.dfy` | `Config` | settings from the environment |
| `trading_models.dfy` | `TradingModels` | order enums, `OrderRequest`, `OrderResponse` |
| `bot_models.dfy` | `BotModels` | bot enums, `BotConfig` |
| `wallet_service.dfy` | `WalletService` | the wallet registry |
| `trading_service.dfy` | `TradingService` | order placement, listing, normalisation |
| `bot_service.dfy` | `BotService` | bot lifecycle and strategy step |

## Model

| member | source | states |
|---|---|---|
| Text.Lower | app/core/config.py:22 | Lower-casing keeps the length and every non-letter, and leaves no upper-case ASCII letter |
| Text.Upper | app/models/trading.py:44-46 | Upper-casing keeps the length and every non-letter, and leaves no lower-case ASCII letter |
| Text.UpperIdempotent | app/models/trading.py:44-46 | Upper-casing an upper-cased symbol changes nothing |
| Text.LowerEqualsIffCaseVariant | app/core/config.py:22 | `v.lower() == w` (for a lower-case `w`) holds exactly when `v` differs from `w` only in letter case |
| Text.Take | app/core/wallet_service.py:71 | `s[:n]` is the first `n` characters, or all of `s` when it is shorter |
| Text.TakeLast | app/core/wallet_service.py:61 | `s[-n:]` is the last `n` characters, or all of `s` when it is shorter |
| Text.IntToDecimal | app/core/trading_service.py:123 | `str(n)` is non-empty, starts with `-` exactly for negatives, and is otherwise digits |
| Text.DecimalRoundTrip | app/core/trading_service.py:123 | Reading `str(n)` back as a decimal gives `n` |
| Text.IntToDecimalInjective | app/core/trading_service.py:123 | Two integers render to the same text exactly when they are equal |
| Encoding.Utf8 | app/core/wallet_service.py:61 | `.encode()` yields at least one byte per character |
| Encoding.Utf8Injective | app/core/wallet_service.py:61 | Different strings encode to different bytes |
| Encoding.Base64 | app/core/wallet_service.py:61 | `b64encode` of `n` bytes has `4 * ceil(n / 3)` characters |
| Encoding.Base64RoundTrip | app/core/wallet_service.py:61 | Decoding the Base64 text gives back the bytes |
| Encoding.Base64Injective | app/core/wallet_service.py:61 | Different byte strings have different Base64 texts |
| Exchange.PyStrOfIntsDistinct | app/core/trading_service.py:123 | Integer order ids have distinct `str` keys, and none of them is `"None"` or `"unknown"` |
| Exchange.Truthy | app/core/trading_service.py:39 | Python truthiness of an exchange value: false exactly for `None`, `0` and `""` |
| Exchange.PyStr | app/core/trading_service.py:35 | `str(v)`: text is kept, `None` renders as `"None"`, and an integer renders as decimal text that reads back as that integer |
| Exchange.ToFloat | app/core/trading_service.py:39-42 | `float(v)`: `None` raises, an integer converts exactly, and text goes to the decimal parser |
| Config.ParseTestnet | app/core/config.py:22 | The flag is true exactly for a case variant of `true` or `t`, or for `1` |
| Config.LoadSettings | app/core/config.py:16-22 | The class-body defaults: the API prefix and name as written; key and secret default to `""`; the testnet flag is true when unset, and otherwise reads the value case-insensitively |
| Config.TestnetSpellings | app/core/config.py:22 | `True`, `TRUE`, `tRuE`, `1`, `t` and `T` enable the testnet under the line-22 expression; that expression rejects `yes`, `0`, `false`, `""`, `on` and ` true` |
| TradingModels.ParseSide | app/models/trading.py:11-16 | Exactly `BUY` and `SELL` are sides, each naming its own member |
| TradingModels.ParseType | app/models/trading.py:18-23 | Exactly `MARKET` and `LIMIT` are order types |
| TradingModels.ParseStatus | app/models/trading.py:25-33 | Exactly the six listed values are statuses |
| TradingModels.EnumRoundTrips | app/models/trading.py:11-33 | Every member parses back from its value; there are six distinct statuses |
| TradingModels.NormalizeSymbol | app/models/trading.py:44-46 | The symbol validator maps each lower-case letter to its upper-case letter, keeps every other character and the length, and leaves no lower-case letter |
| TradingModels.CheckQuantity | app/models/trading.py:48-52 | A quantity passes unchanged exactly when it is positive |
| TradingModels.CheckPrice | app/models/trading.py:54-58 | A missing price passes; a present one passes unchanged exactly when it is positive |
| TradingModels.ValidateOrderRequest | app/models/trading.py:36-58 | A request is accepted exactly when quantity > 0 and the price is missing or positive; the accepted symbol is upper-cased; each bad field, and only those, is reported |
| TradingModels.ResponseWithDefaults | app/models/trading.py:61-74 | An order response built from its required fields has no price or update time and zero executed and cumulative quantities |
| BotModels.ParseStatus | app/models/bot.py:11-16 | Exactly `stopped`, `running` and `error` are bot statuses |
| BotModels.ParseStrategy | app/models/bot.py:19-23 | Exactly `simple` and `grid` are strategies |
| BotModels.BotEnumRoundTrips | app/models/bot.py:11-23 | Every status and strategy parses back from its value |
| BotModels.ValidateBotConfig | app/models/bot.py:26-53 | A config is accepted exactly when the given interval is at least 5 and the maximum amount positive. The symbol is upper-cased; the interval defaults to 60 and the strategy to SIMPLE; the thresholds are kept; each bad field, and only those, is reported |
| BotModels.MinimalRequestDefaults | app/models/bot.py:30-37 | A request with only the required fields gets 60 s, SIMPLE and no thresholds |
| WalletService.EmptyValid | app/core/wallet_service.py:28 | A new registry is well formed, finds no wallet and lists none |
| WalletService.WalletIdFor | app/core/wallet_service.py:61 | The wallet id is Base64 text that decodes back to the UTF-8 bytes of the key's last eight characters |
| WalletService.WalletIdIffSameSuffix | app/core/wallet_service.py:61 | Two API keys get the same wallet id exactly when their last eight characters agree |
| WalletService.DefaultNameShape | app/core/wallet_service.py:71 | For a key of 8 or more characters the default name is `Wallet-` plus exactly the first six characters of the id |
| WalletService.DefaultWalletName | app/core/wallet_service.py:71 | The default name is `Wallet-` followed by the first six characters of the id, or all of them when it is shorter |
| WalletService.ChosenName | app/core/wallet_service.py:71 | A missing or empty name falls back to the default name; any other is kept |
| WalletService.Store | app/core/wallet_service.py:68-74 | Storing updates exactly one key; a new id is appended to the key order and an existing one keeps its place |
| WalletService.ConnectWallet | app/core/wallet_service.py:54-81 | A failed probe is wrapped with the connect prefix. `false` returns False with the registry unchanged. `true` adds or replaces exactly the derived id's record, leaves the other wallets unchanged, appends a new id to the key order and keeps an existing id in place |
| WalletService.SameSuffixOverwrites | app/core/wallet_service.py:61-74 | A key with the same last eight characters replaces the existing wallet in place, without adding one |
| WalletService.GetWallet | app/core/wallet_service.py:93-100 | `None` exactly for an unknown id; otherwise the stored name, network flag and time, without the credentials |
| WalletService.ConnectThenGet | app/core/wallet_service.py:59-100 | After a successful connection, `get_wallet` on the derived id shows the chosen name, flag and time |
| WalletService.ListWallets | app/core/wallet_service.py:109-119 | One entry per stored id in key order, each agreeing with `get_wallet` on that id |
| WalletService.ListWalletsCoversRegistry | app/core/wallet_service.py:109-119 | Every stored wallet is listed exactly once |
| WalletService.ReadBalance | app/core/wallet_service.py:153-164 | An entry fails exactly when an amount is missing or does not convert, or when it is held but its asset is not text. A readable entry is kept exactly when free > 0 or locked > 0, and the kept balance carries that entry's asset and converted amounts |
| WalletService.Collect | app/core/wallet_service.py:153-164 | Reading item by item succeeds exactly when every item reads; the values kept are exactly those the reads yield |
| WalletService.CollectAppend | app/core/wallet_service.py:153-164 | Collecting a concatenation gives the collections of the parts, in order |
| WalletService.CollectKeepsEvery | app/core/wallet_service.py:153-164 | After a successful collection, every value an item reads to is among the collected ones |
| WalletService.CollectStep | app/core/wallet_service.py:153-164 | One pass of the loop extends the collected prefix by exactly what the next item reads to |
| WalletService.KeptBalances | app/core/wallet_service.py:152-166 | The listing succeeds exactly when every entry reads. Every kept balance is built from a held entry, and every held entry's balance is kept |
| WalletService.HeldEntriesKept | app/core/wallet_service.py:153-164 | After a successful listing, every entry with free > 0 or locked > 0 has its balance in the result |
| WalletService.KeptBalancesAppend | app/core/wallet_service.py:152-166 | Filtering is entry by entry: the balances of a concatenation are the balances of each part, in order |
| WalletService.KeptBalancesOfOne | app/core/wallet_service.py:153-164 | A single entry contributes its balance exactly when it is kept |
| WalletService.GetWalletBalance | app/core/wallet_service.py:135-169 | An unknown id fails before any exchange input is read. Every failure after that carries the balance prefix: a failed request gives the prefix plus its text, and an unreadable entry gives the prefix plus the error of the first entry that fails to read. Otherwise the result is exactly the kept balances in source order: every held entry's balance and nothing else |
| TradingService.AmountOrZero | app/core/trading_service.py:41-42 | A missing amount reads as 0; a present one is its `float` conversion |
| TradingService.ReadHeader | app/core/trading_service.py:35-38 | The symbol, side, type and status read exactly when the symbol is text and the rest are text naming enum members |
| TradingService.ReadAmounts | app/core/trading_service.py:39-42 | The amounts read exactly when they convert. The quantity, the executed and the cumulative amounts are the conversions of their fields (0 when missing); a missing or falsy price gives None |
| TradingService.ReadTimes | app/core/trading_service.py:43-44 | A truthy time must be integer milliseconds; a falsy creation time means now, and a falsy update time means none |
| TradingService.ConvertOrder | app/core/trading_service.py:33-45 | The full conversion succeeds exactly when every field reads. The id is `str(orderId)` and the enums come from their values. The quantity and the amounts are the conversions of their fields, missing amounts being 0. The price is None exactly when it is missing or falsy. A truthy creation or update time gives those milliseconds; a falsy creation time means now and a falsy update time none |
| TradingService.FallbackResponse | app/core/trading_service.py:46-56 | The fallback is BUY / MARKET / NEW with defaults. The id is `str(orderId)`, the symbol is the reply's text and the quantity the conversion of `origQty`; `"unknown"` stands for a missing id or symbol and 0 for a missing quantity. It fails exactly when the quantity does not convert or the symbol is not text |
| TradingService.CreateOrderResponse | app/core/trading_service.py:31-56 | The full conversion when every field reads, otherwise the fallback; only conversion or validation errors escape |
| TradingService.FallbackReportsBuy | app/core/trading_service.py:46-56 | A reply that needs the fallback is reported as a new BUY whatever its real side |
| TradingService.OrderParamsFor | app/core/trading_service.py:105-120 | With a price, a LIMIT order, good till cancelled, at that price; without one, a MARKET order |
| TradingService.PlaceOrder | app/core/trading_service.py:101-129 | An unknown wallet fails wrapped, before sending and with the history unchanged. A client error or a reply without `orderId` fails wrapped with the side's prefix. Otherwise the result is the reply's response (a conversion failure wrapped), and the reply is stored under `str(orderId)` with no other entry changed |
| TradingService.PlacedOrderIsRecorded | app/core/trading_service.py:123-126 | After a successful placement the history holds the reply under the id the response reports, and converting it gives the response again |
| TradingService.PlaceBuyOrder | app/core/trading_service.py:84-129 | Sends a BUY order |
| TradingService.PlaceSellOrder | app/core/trading_service.py:131-176 | Sends a SELL order |
| TradingService.BuyAndSellDifferOnlyInSide | app/core/trading_service.py:101-176 | Buying and selling send the same request but for the side, leave the same history and succeed or fail together |
| TradingService.FetchAll | app/core/trading_service.py:226-234 | The gathered orders are exactly those of the symbols whose query succeeded |
| TradingService.FetchAllAppend | app/core/trading_service.py:228-231 | The orders gathered for a concatenation of symbol lists are those of each list, in order |
| TradingService.FetchAllOfOne | app/core/trading_service.py:228-231 | A single symbol contributes exactly its own orders, or none when its query failed |
| TradingService.DefaultFetch | app/core/trading_service.py:226-231 | Without a symbol, the gathered orders are BTCUSDT's, then ETHUSDT's, then BNBUSDT's |
| TradingService.Fetched | app/core/trading_service.py:222-234 | With a truthy symbol, that symbol's query (its failure raises); otherwise the three default symbols' orders concatenated in order, never failing |
| TradingService.TimeKey | app/core/trading_service.py:237 | A missing `time` sorts as 0 |
| TradingService.InsertByTime | app/core/trading_service.py:237 | Inserting an order adds exactly that order to the list |
| TradingService.SortNewestFirst | app/core/trading_service.py:237 | The listing is in descending `time` order and is a permutation of the fetched orders |
| TradingService.InsertKeepsNewestFirst | app/core/trading_service.py:237 | Inserting into a newest-first list keeps it newest-first |
| TradingService.RecordOrders | app/core/trading_service.py:240-241 | Recording fails exactly when some order has no id, and it never drops an entry |
| TradingService.RecordOrdersStores | app/core/trading_service.py:240-241 | Each order is stored under its id unless a later one with the same id replaced it |
| TradingService.RecordOrdersKeeps | app/core/trading_service.py:240-241 | Entries whose id no recorded order carries are unchanged |
| TradingService.RecordOrdersCovers | app/core/trading_service.py:240-241 | Every recorded order's id is in the history |
| TradingService.MapResults | app/core/trading_service.py:244 | A list comprehension over a raising function succeeds exactly when every element converts, one to one and in order. Otherwise it raises the error of the first element that fails |
| TradingService.ConvertAll | app/core/trading_service.py:244 | Every listed order is converted, one to one and in order, or the listing raises the error of an order that failed |
| TradingService.RecordAndConvert | app/core/trading_service.py:240-244 | A missing order id fails as a `KeyError` before any conversion. With every id present, it succeeds if and only if every order converts, and otherwise fails with the wrapped error of an order that does not. The history afterwards is the recording of the sorted orders. After a success with distinct ids, every returned order is in the history under its id |
| TradingService.RecordOrdersStoresAll | app/core/trading_service.py:240-241 | With distinct ids, every recorded order is in the history under its id |
| TradingService.ListFetched | app/core/trading_service.py:236-247 | Two or more orders with a non-integer time fail as a sort error and leave the history unchanged. Otherwise the result is exactly recording and converting the fetched orders sorted newest first. A successful listing is newest-first, a permutation of the fetched orders, recorded, and converted one to one |
| TradingService.GetOrders | app/core/trading_service.py:207-247 | An unknown wallet fails wrapped. A failure to decrypt the credentials or build the client fails wrapped, before any query and with the history unchanged. Without a truthy symbol only BTCUSDT, ETHUSDT and BNBUSDT are queried. A failed query of the given symbol fails wrapped with the history unchanged. Fetched orders are passed on to ListFetched exactly. Every failure is wrapped with the listing prefix. Success is the fetched orders (see Fetched for which, and how many) sorted newest first, recorded and converted one to one; with distinct ids every returned order is in the history under its id |
| TradingService.GetOrdersSucceeds | app/core/trading_service.py:218-244 | With a known wallet and a working client, once the orders are fetched and sortable, and every fetched order has an id and converts, the listing succeeds. It returns one response per fetched order, converted from a permutation of them |
| BotService.Push | app/core/bot_service.py:191-196 | The new price ends the history. Below 100 entries nothing is evicted; at 100 exactly the oldest entry is. The survivors are the newest older entries, in order |
| BotService.PushAllKeepsNewest | app/core/bot_service.py:191-196 | Any run of pushes leaves exactly the newest 100 prices seen, oldest first |
| BotService.EffectiveThreshold | app/core/bot_service.py:227-228 | A missing or zero threshold takes the default (0.5 to buy, 1.0 to sell) |
| BotService.ChangePercent | app/core/bot_service.py:231 | The move is zero exactly when the price is unchanged, negative (for a positive previous price) exactly when it fell, and scaled so that `last * change == (current - last) * 100` |
| BotService.SimpleStrategy | app/core/bot_service.py:226-255 | Buy exactly when the move is at most minus the buy threshold. Otherwise sell exactly when it is at least the sell threshold. Otherwise analysis only |
| BotService.ChangeVersusLevel | app/core/bot_service.py:231 | For a positive previous price, the percentage move is at most (at least) `t` exactly when the current price is at most (at least) `last*(1+t/100)` |
| BotService.SignalsAsPriceLevels | app/core/bot_service.py:231-255 | For a positive previous price, buy exactly at or below `last*(1-b/100)` and sell exactly at or above `last*(1+s/100)` when not buying |
| BotService.SignalsAreMonotone | app/core/bot_service.py:231-255 | A lower price keeps a buy signal a buy signal; with default thresholds an unchanged price gives no signal |
| BotService.GridStrategy | app/core/bot_service.py:257-269 | The grid strategy only records the current price and the move |
| BotService.Step | app/core/bot_service.py:170-215 | Without a config nothing changes. A failed fetch records only the error. A fetched price is pushed and becomes the last price. "Monitoring" is recorded exactly when the previous price was missing or zero; otherwise the configured strategy's classification of the move is recorded. Status and config never change |
| BotService.StepBuysAtLevel | app/core/bot_service.py:203-209 | Under the simple strategy with a positive previous price, a step records a buy signal exactly when the price is at or below the buy level |
| BotService.Start | app/core/bot_service.py:38-92 | Fails when a loop is alive or the wallet is unknown, in that order, or, when the probe fails, with the invalid-symbol error carrying the probe's text. On success: RUNNING, empty history, no error message, the probe's price as last price |
| BotService.ExitLoop | app/core/bot_service.py:166-168 | The loop's `finally` turns any status but STOPPED into ERROR |
| BotService.Stop | app/core/bot_service.py:94-111 | False with no change when no loop is alive; otherwise STOPPED, not running, "stopped by user" |
| BotService.Tick | app/core/bot_service.py:135-147 | A pass without config ends the loop in ERROR with its message; otherwise it is one strategy step |
| BotService.LoopFault | app/core/bot_service.py:149-164 | An exception reaching a handler records its prefixed message, sets ERROR and ends the loop, keeping history and config |
| BotService.Apply | app/core/bot_service.py:38-168 | Only a start brings a loop to life; stop and a loop fault leave none alive; a stop of a live loop ends STOPPED; with no loop alive anything but a start changes nothing; a start while running changes nothing |
| BotService.Run | app/core/bot_service.py:38-168 | Without a start among the events, a bot with no live loop stays exactly as it is |
| BotService.InitialValid | app/core/bot_service.py:21-36 | A new service is stopped, idle, with empty history and satisfies the invariant |
| BotService.ApplyPreservesValid | app/core/bot_service.py:38-168 | Each event keeps the invariant: history ≤ 100 entries, RUNNING iff a loop is alive, a live loop has a config, ERROR has a message |
| BotService.RunPreservesValid | app/core/bot_service.py:38-168 | Every sequence of events keeps the invariant |
| BotService.TickKeepsRunning | app/core/bot_service.py:131-215 | In a valid running state a loop pass never stops the bot; a failed price fetch is only recorded |

## Left out

- `get_order` and `cancel_order` (app/core/trading_service.py): not modelled. They follow the placement pattern but store under the caller's id text.
- `get_status` is not modelled: it is a read-only projection of the state plus the clock.
- The bot's `start_time` is not modelled: it is a clock reading.
- The FastAPI routers, `main.py` and app/core/binance_client.py are not part of this model; the exchange's answers are inputs.
- Fernet encryption is not modelled: ciphertexts are opaque inputs. A decryption or client-construction failure is part of the exchange input of each operation (the `reply` of a placement, the `account` of a balance query, the `probe` of a start) or, for `get_orders`, its own `client` input.
- Encryption-key generation in `WalletService.__init__` is not modelled either.
- Threads are not modelled:
  - the stop event, `wait` and `join(timeout=30)` are reduced to event order;
  - a loop pass that outlives the 30-second join could still record a price, the price history and `last_operation` after `stop` returned, and `start` refuses while that thread is alive;
  - Stop: hides the intermediate ERROR that the loop's `finally` sets just before `stop` sets STOPPED.
- Timestamps and ISO formatting are not modelled. Times are abstract (`ExchangeMillis(ms)` or the current time).
- ConvertOrder: does not model the range error that `datetime.fromtimestamp` raises for out-of-range milliseconds.
- Floating point is not modelled. Amounts, prices and percentages are reals, so NaN, infinities and rounding are absent. Decimal-text parsing is a parameter.
- Exchange values are limited to `None`, integers and strings. Floats, booleans and nested lists inside an order dict are not modelled.
- Text.Upper, Text.Lower, TradingModels.NormalizeSymbol: case mapping is ASCII only. Python's Unicode `upper()` / `lower()` is not modelled beyond ASCII; there `'ß'.upper()` is `"SS"`, so "keeps the length" holds only for the modelled ASCII mapping.
- Config.LoadSettings: does not model pydantic-settings overriding any of the five fields (`API_V1_STR`, `PROJECT_NAME`, `BINANCE_API_KEY`, `BINANCE_API_SECRET`, `BINANCE_TESTNET`) from same-named environment variables, or its own boolean parser for `BINANCE_TESTNET`. It models the class-body defaults only.
- ListFetched: treats two or more orders whose times are all text as a sort failure, whereas Python would sort them lexicographically.
- SortNewestFirst: is proved sorted and a permutation. That equal times keep their fetched order (Python's sort is stable) is not proved.
- ReadBalance: error details are descriptive texts, not Python's exception messages. Likewise `Raised` in the order service and `StartError` keep the cause structured rather than rendered with `str(e)`.
- Log messages, and the `last_operation` texts built with formatted floats, are not modelled. Operations are kept as structured values.
- WalletService.ConnectWallet: the probe input folds client construction and `test_connection` into one outcome.
- TradingService.PlaceOrder: `sent` records the request that would be sent, including when building the client fails.

=== FILE: bot_models.dfy ===
/** Bot enums and the bot configuration with its defaults and validators (app/models/bot.py). */
module BotModels {

  import opened Wrappers
  import Text
  import opened Validation

  datatype BotStatus = Stopped | Running | Error

  function StatusValue(s: BotStatus): string {
    match s
    case Stopped => "stopped"
    case Running => "running"
    case Error => "error"
  }

  /** `BotStatus(v)`: exactly the three lower-case values are accepted. */
  function ParseStatus(v: string): (r: Option<BotStatus>)
    ensures r.Some? <==> v == "stopped" || v == "running" || v == "error"
    ensures r.Some? ==> StatusValue(r.value) == v
  {
    if v == "stopped" then Some(Stopped)
    else if v == "running" then Some(Running)
    else if v == "error" then Some(Error)
    else None
  }

  datatype BotStrategy = Simple | Grid

  function StrategyValue(s: BotStrategy): string {
    match s
    case Simple => "simple"
    case Grid => "grid"
  }

  /** `BotStrategy(v)`. */
  function ParseStrategy(v: string): (r: Option<BotStrategy>)
    ensures r.Some? <==> v == "simple" || v == "grid"
    ensures r.Some? ==> StrategyValue(r.value) == v
  {
    if v == "simple" then Some(Simple) else if v == "grid" then Some(Grid) else None
  }

  lemma BotEnumRoundTrips(status: BotStatus, strategy: BotStrategy)
    ensures ParseStatus(StatusValue(status)) == Some(status)
    ensures ParseStrategy(StrategyValue(strategy)) == Some(strategy)
  {
  }

  datatype BotConfig = BotConfig(
    symbol: string,
    intervalSeconds: int,
    maxAmount: real,
    walletId: string,
    strategy: BotStrategy,
    buyThreshold: Option<real>,
    sellThreshold: Option<real>)

  /** The fields of a configuration request; `None` marks a field left out of the request. */
  datatype BotConfigRequest = BotConfigRequest(
    symbol: string,
    intervalSeconds: Option<int>,
    maxAmount: real,
    walletId: string,
    strategy: Option<BotStrategy>,
    buyThreshold: Option<real>,
    sellThreshold: Option<real>)

  const DefaultIntervalSeconds := 60
  const MinIntervalSeconds := 5
  const IntervalMessage := "O intervalo deve ser de pelo menos 5 segundos"
  const MaxAmountMessage := "O valor máximo deve ser maior que zero"

  /** Builds a `BotConfig`: defaults fill the fields left out (defaults are not re-validated),
      the symbol is upper-cased, and every failing validator is reported. */
  function ValidateBotConfig(req: BotConfigRequest): (r: Result<BotConfig, seq<FieldError>>)
    ensures r.Success? <==>
              (req.intervalSeconds.None? || req.intervalSeconds.value >= MinIntervalSeconds) && req.maxAmount > 0.0
    ensures r.Success? ==> r.value.symbol == Text.Upper(req.symbol)
    ensures r.Success? ==> r.value.intervalSeconds == req.intervalSeconds.GetOr(DefaultIntervalSeconds)
    ensures r.Success? ==> r.value.intervalSeconds >= MinIntervalSeconds
    ensures r.Success? ==> r.value.strategy == req.strategy.GetOr(Simple)
    ensures r.Success? ==> r.value.buyThreshold == req.buyThreshold && r.value.sellThreshold == req.sellThreshold
    ensures r.Success? ==> r.value.maxAmount == req.maxAmount && r.value.walletId == req.walletId
    ensures r.Failure? ==>
              ("interval_seconds" in FailedFields(r.error) <==>
                 req.intervalSeconds.Some? && req.intervalSeconds.value < MinIntervalSeconds)
    ensures r.Failure? ==> ("max_amount" in FailedFields(r.error) <==> req.maxAmount <= 0.0)
    ensures r.Failure? ==> FailedFields(r.error) <= {"interval_seconds", "max_amount"}
  {
    var intervalBad := req.intervalSeconds.Some? && req.intervalSeconds.value < MinIntervalSeconds;
    var errors :=
      (if intervalBad then [FieldError("interval_seconds", IntervalMessage)] else [])
      + (if req.maxAmount <= 0.0 then [FieldError("max_amount", MaxAmountMessage)] else []);
    if errors != [] then Failure(errors)
    else
      Success(BotConfig(
        Text.Upper(req.symbol),
        req.intervalSeconds.GetOr(DefaultIntervalSeconds),
        req.maxAmount,
        req.walletId,
        req.strategy.GetOr(Simple),
        req.buyThreshold,
        req.sellThreshold))
  }

  /** A request that gives only the required fields gets a 60-second interval, the
      simple strategy and no thresholds. */
  lemma MinimalRequestDefaults(symbol: string, maxAmount: real, walletId: string)
    requires maxAmount > 0.0
    ensures
      var r := ValidateBotConfig(BotConfigRequest(symbol, None, maxAmount, walletId, None, None, None));
      && r.Success?
      && r.value.intervalSeconds == 60
      && r.value.strategy == Simple
      && r.value.buyThreshold.None? && r.value.sellThreshold.None?
  {
  }
}

=== FILE: bot_service.dfy ===
/** The trading-bot controller (app/core/bot_service.py): a lifecycle over STOPPED, RUNNING
    and ERROR driven by start, stop, loop iterations and loop failures, and the per-iteration
    strategy step. Prices and percentages are mathematical reals; the thread, its stop
    event and the clock are not modelled, only the order in which events happen. */
module BotService {

  import opened Wrappers
  import opened BotModels
  import WalletService

  /** The price history keeps at most this many entries. */
  const HistoryLimit := 100

  const DefaultBuyThreshold := 0.5
  const DefaultSellThreshold := 1.0

  /** The `last_operation` record, kept structured rather than as formatted text. */
  datatype Operation =
    | Started(symbol: string)
    | StoppedByUser
    | Monitoring(price: real)
    | Analysis(price: real, change: real)
    | BuySignal(last: real, current: real, change: real)
    | SellSignal(last: real, current: real, change: real)
    | GridAnalysis(price: real, change: real)
    | StrategyFailed(detail: string)

  /** The controller's state. `running` says whether the loop thread is alive. */
  datatype BotState = BotState(
    status: BotStatus,
    config: Option<BotConfig>,
    running: bool,
    lastPrice: Option<real>,
    lastOperation: Option<Operation>,
    errorMessage: Option<string>,
    walletId: Option<string>,
    symbol: Option<string>,
    history: seq<real>)

  /** The state of a freshly constructed service. */
  const Initial := BotState(Stopped, None, false, None, None, None, None, None, [])

  // ---- price history ----

  /** Appends a price and, past the limit, drops the oldest entry. */
  function Push(history: seq<real>, price: real): (r: seq<real>)
    ensures |r| > 0 && r[|r| - 1] == price
    ensures |history| < HistoryLimit ==> |r| == |history| + 1
    ensures |history| == HistoryLimit ==> |r| == HistoryLimit
    ensures |history| <= HistoryLimit ==> |r| <= HistoryLimit
    ensures |r| - 1 <= |history| && r[..|r| - 1] == history[|history| - (|r| - 1)..]
  {
    var appended := history + [price];
    if |appended| > HistoryLimit then appended[1..] else appended
  }

  /** Pushes prices one after another. */
  function PushAll(history: seq<real>, prices: seq<real>): seq<real>
    decreases |prices|
  {
    if |prices| == 0 then history else PushAll(Push(history, prices[0]), prices[1..])
  }

  /** The newest `n` entries of `s` (all of them when there are fewer). */
  function Newest(s: seq<real>, n: nat): (r: seq<real>)
    ensures |r| == if |s| <= n then |s| else n
  {
    if |s| <= n then s else s[|s| - n..]
  }

  /** From a history within the limit, pushing any prices leaves exactly the newest
      100 of all prices seen, oldest first. */
  lemma {:induction false} PushAllKeepsNewest(history: seq<real>, prices: seq<real>)
    requires |history| <= HistoryLimit
    ensures PushAll(history, prices) == Newest(history + prices, HistoryLimit)
    decreases |prices|
  {
    if |prices| > 0 {
      var h1 := Push(history, prices[0]);
      PushAllKeepsNewest(h1, prices[1..]);
      assert Newest(h1 + prices[1..], HistoryLimit) == Newest(history + prices, HistoryLimit) by {
        var all := history + prices;
        assert all == (history + [prices[0]]) + prices[1..];
        if |history| + 1 > HistoryLimit {
          assert h1 == (history + [prices[0]])[1..];
          assert h1 + prices[1..] == all[1..];
        } else {
          assert h1 == history + [prices[0]];
          assert h1 + prices[1..] == all;
        }
      }
    }
  }

  // ---- strategies ----

  /** `configured or default`: a missing or zero threshold takes the default. */
  function EffectiveThreshold(configured: Option<real>, default: real): (t: real)
    ensures configured.None? ==> t == default
    ensures configured.Some? && configured.value == 0.0 ==> t == default
    ensures configured.Some? && configured.value != 0.0 ==> t == configured.value
  {
    if configured.Some? && configured.value != 0.0 then configured.value else default
  }

  /** The percentage move from the previous price to the current one. */
  function ChangePercent(last: real, current: real): (c: real)
    requires last != 0.0
    ensures c == 0.0 <==> current == last
    ensures last > 0.0 ==> (c < 0.0 <==> current < last)
    ensures last * c == (current - last) * 100.0
  {
    ((current - last) / last) * 100.0
  }

  /** The simple strategy: a buy signal when the price fell by at least the buy threshold,
      otherwise a sell signal when it rose by at least the sell threshold, otherwise only
      the analysis. */
  function SimpleStrategy(config: BotConfig, last: real, current: real): (op: Operation)
    requires last != 0.0
    ensures op.BuySignal? || op.SellSignal? || op.Analysis?
    ensures op.BuySignal? <==>
              ChangePercent(last, current) <= -EffectiveThreshold(config.buyThreshold, DefaultBuyThreshold)
    ensures op.SellSignal? <==>
              && ChangePercent(last, current) > -EffectiveThreshold(config.buyThreshold, DefaultBuyThreshold)
              && ChangePercent(last, current) >= EffectiveThreshold(config.sellThreshold, DefaultSellThreshold)
    ensures (op.BuySignal? || op.SellSignal?) ==>
              op.last == last && op.current == current && op.change == ChangePercent(last, current)
    ensures op.Analysis? ==> op.price == current && op.change == ChangePercent(last, current)
  {
    var buyThreshold := EffectiveThreshold(config.buyThreshold, DefaultBuyThreshold);
    var sellThreshold := EffectiveThreshold(config.sellThreshold, DefaultSellThreshold);
    var change := ChangePercent(last, current);
    if change <= -buyThreshold then BuySignal(last, current, change)
    else if change >= sellThreshold then SellSignal(last, current, change)
    else Analysis(current, change)
  }

  /** For a positive previous price, a percentage move compares with a threshold `t` as the
      current price compares with the level `last * (1 + t/100)`. */
  lemma ChangeVersusLevel(last: real, current: real, t: real)
    requires last > 0.0
    ensures ChangePercent(last, current) <= t <==> current <= last * (1.0 + t / 100.0)
    ensures ChangePercent(last, current) >= t <==> current >= last * (1.0 + t / 100.0)
  {
  }

  /** For a positive previous price the signals are price levels: buy at or below
      `last * (1 - buy/100)`, sell at or above `last * (1 + sell/100)`. */
  lemma SignalsAsPriceLevels(config: BotConfig, last: real, current: real)
    requires last > 0.0
    ensures var b := EffectiveThreshold(config.buyThreshold, DefaultBuyThreshold);
            var s := EffectiveThreshold(config.sellThreshold, DefaultSellThreshold);
            var op := SimpleStrategy(config, last, current);
            && (op.BuySignal? <==> current <= last * (1.0 - b / 100.0))
            && (op.SellSignal? <==> current > last * (1.0 - b / 100.0) && current >= last * (1.0 + s / 100.0))
  {
    var b := EffectiveThreshold(config.buyThreshold, DefaultBuyThreshold);
    var s := EffectiveThreshold(config.sellThreshold, DefaultSellThreshold);
    ChangeVersusLevel(last, current, -b);
    ChangeVersusLevel(last, current, s);
    assert last * (1.0 + -b / 100.0) == last * (1.0 - b / 100.0);
  }

  /** With the default thresholds an unchanged price gives no signal, and for a positive
      previous price a lower current price never turns a buy signal into anything else. */
  lemma SignalsAreMonotone(config: BotConfig, last: real, current: real, lower: real)
    requires last > 0.0
    requires lower <= current
    ensures SimpleStrategy(config, last, current).BuySignal? ==> SimpleStrategy(config, last, lower).BuySignal?
    ensures config.buyThreshold.None? && config.sellThreshold.None? ==> SimpleStrategy(config, last, last).Analysis?
  {
    SignalsAsPriceLevels(config, last, current);
    SignalsAsPriceLevels(config, last, lower);
  }

  /** The grid strategy only records the analysis. */
  function GridStrategy(last: real, current: real): (op: Operation)
    requires last != 0.0
    ensures op.GridAnalysis? && op.price == current && op.change == ChangePercent(last, current)
  {
    GridAnalysis(current, ChangePercent(last, current))
  }

  /** `_execute_strategy` with the fetched price (or the text of what fetching raised). */
  function Step(st: BotState, fetched: Result<real, string>): (r: BotState)
    ensures st.config.None? ==> r == st
    ensures r.status == st.status && r.config == st.config && r.running == st.running
    ensures r.errorMessage == st.errorMessage && r.walletId == st.walletId && r.symbol == st.symbol
    ensures st.config.Some? && fetched.Failure? ==>
              r == st.(lastOperation := Some(StrategyFailed(fetched.error)))
    ensures st.config.Some? && fetched.Success? ==>
              && r.lastPrice == Some(fetched.value)
              && r.history == Push(st.history, fetched.value)
              && ((st.lastPrice.None? || st.lastPrice.value == 0.0) <==>
                    r.lastOperation == Some(Monitoring(fetched.value)))
    ensures st.config.Some? && fetched.Success? && st.lastPrice.Some? && st.lastPrice.value != 0.0 ==>
              r.lastOperation == Some(
                if st.config.value.strategy == Simple then SimpleStrategy(st.config.value, st.lastPrice.value, fetched.value)
                else GridStrategy(st.lastPrice.value, fetched.value))
    ensures |st.history| <= HistoryLimit ==> |r.history| <= HistoryLimit
  {
    match st.config
    case None => st
    case Some(config) =>
      match fetched
      case Failure(e) => st.(lastOperation := Some(StrategyFailed(e)))
      case Success(price) =>
        var st1 := st.(history := Push(st.history, price), lastPrice := Some(price));
        if st.lastPrice.None? || st.lastPrice.value == 0.0 then
          st1.(lastOperation := Some(Monitoring(price)))
        else
          var last := st.lastPrice.value;
          var op := match config.strategy
                    case Simple => SimpleStrategy(config, last, price)
                    case Grid => GridStrategy(last, price);
          st1.(lastOperation := Some(op))
  }

  /** Under the simple strategy with a positive previous price, a step records a buy
      signal exactly when the fetched price is at or below the buy level. */
  lemma StepBuysAtLevel(st: BotState, price: real)
    requires st.config.Some? && st.config.value.strategy == Simple
    requires st.lastPrice.Some? && st.lastPrice.value > 0.0
    ensures var b := EffectiveThreshold(st.config.value.buyThreshold, DefaultBuyThreshold);
            Step(st, Success(price)).lastOperation.value.BuySignal? <==>
              price <= st.lastPrice.value * (1.0 - b / 100.0)
  {
    SignalsAsPriceLevels(st.config.value, st.lastPrice.value, price);
  }

  // ---- lifecycle ----

  datatype StartError = AlreadyRunning | WalletNotFound(walletId: string) | InvalidSymbol(detail: string)

  function StartErrorMessage(e: StartError): string {
    match e
    case AlreadyRunning => "O bot já está em execução"
    case WalletNotFound(id) => "Carteira com ID " + id + " não encontrada"
    case InvalidSymbol(detail) => "Símbolo inválido ou erro de conexão: " + detail
  }

  /** `start`. `probe` is what decrypting the credentials, building the client and
      fetching the symbol's price gave. */
  function Start(st: BotState, reg: WalletService.Registry, config: BotConfig, probe: Result<real, string>)
    : (r: Result<BotState, StartError>)
    ensures st.running ==> r == Failure(AlreadyRunning)
    ensures !st.running && WalletService.GetWallet(reg, config.walletId).None? ==>
              r == Failure(WalletNotFound(config.walletId))
    ensures !st.running && WalletService.GetWallet(reg, config.walletId).Some? && probe.Failure? ==>
              r == Failure(InvalidSymbol(probe.error))
    ensures r.Success? <==>
              !st.running && WalletService.GetWallet(reg, config.walletId).Some? && probe.Success?
    ensures r.Success? ==>
              && r.value.status == Running && r.value.running
              && r.value.config == Some(config)
              && r.value.lastPrice == Some(probe.value)
              && r.value.history == []
              && r.value.errorMessage.None?
              && r.value.lastOperation == Some(Started(config.symbol))
              && r.value.walletId == Some(config.walletId) && r.value.symbol == Some(config.symbol)
  {
    if st.running then Failure(AlreadyRunning)
    else if WalletService.GetWallet(reg, config.walletId).None? then Failure(WalletNotFound(config.walletId))
    else
      match probe
      case Failure(e) => Failure(InvalidSymbol(e))
      case Success(price) =>
        Success(st.(
          config := Some(config),
          lastPrice := Some(price),
          walletId := Some(config.walletId),
          symbol := Some(config.symbol),
          history := [],
          errorMessage := None,
          lastOperation := Some(Started(config.symbol)),
          running := true,
          status := Running))
  }

  /** The loop thread ends: its `finally` turns any status other than STOPPED into ERROR. */
  function ExitLoop(st: BotState): (r: BotState)
    ensures !r.running
    ensures r.status == (if st.status == Stopped then Stopped else Error)
    ensures r == st.(running := false, status := r.status)
  {
    st.(running := false, status := if st.status != Stopped then Error else st.status)
  }

  /** `stop`: `false` and no change when no loop is alive; otherwise the loop ends (while the
      status is still RUNNING, so its `finally` sets ERROR) and then the status becomes STOPPED. */
  function Stop(st: BotState): (r: (bool, BotState))
    ensures !st.running ==> r == (false, st)
    ensures st.running ==>
              && r.0
              && r.1.status == Stopped && !r.1.running
              && r.1.lastOperation == Some(StoppedByUser)
              && r.1 == st.(running := false, status := Stopped, lastOperation := Some(StoppedByUser))
  {
    if !st.running then (false, st)
    else (true, ExitLoop(st).(status := Stopped, lastOperation := Some(StoppedByUser)))
  }

  const ConfigMissingMessage := "Configuração do bot não definida"

  /** The loop's handlers: an exchange error, any other error inside an iteration, or an
      error around the loop itself. */
  datatype LoopFailure = ApiFailure | IterationFailure | FatalFailure

  function FailurePrefix(kind: LoopFailure): string {
    match kind
    case ApiFailure => "Erro na API da Binance: "
    case IterationFailure => "Erro durante a execução do bot: "
    case FatalFailure => "Erro fatal no loop do bot: "
  }

  /** One pass of the loop: ends with ERROR when there is no configuration, else runs the step. */
  function Tick(st: BotState, fetched: Result<real, string>): (r: BotState)
    ensures !st.running ==> r == st
    ensures st.running && st.config.None? ==>
              r.status == Error && !r.running && r.errorMessage == Some(ConfigMissingMessage)
    ensures st.running && st.config.Some? ==> r == Step(st, fetched)
  {
    if !st.running then st
    else if st.config.None? then ExitLoop(st.(errorMessage := Some(ConfigMissingMessage), status := Error))
    else Step(st, fetched)
  }

  /** An exception reaching one of the loop's handlers: the message is recorded, the status
      becomes ERROR and the loop ends. (`_execute_strategy` catches its own exceptions, so a
      failed price fetch is not one of these.) */
  function LoopFault(st: BotState, kind: LoopFailure, detail: string): (r: BotState)
    ensures !st.running ==> r == st
    ensures st.running ==>
              && r.status == Error && !r.running
              && r.errorMessage == Some(FailurePrefix(kind) + detail)
              && r.history == st.history && r.lastPrice == st.lastPrice && r.config == st.config
  {
    if !st.running then st
    else ExitLoop(st.(errorMessage := Some(FailurePrefix(kind) + detail), status := Error))
  }

  datatype Event =
    | StartEvent(reg: WalletService.Registry, config: BotConfig, probe: Result<real, string>)
    | StopEvent
    | TickEvent(fetched: Result<real, string>)
    | FaultEvent(kind: LoopFailure, detail: string)

  /** The state after one event; a `start` that raises leaves the state as it was. */
  function Apply(st: BotState, e: Event): (r: BotState)
    ensures r.running && !st.running ==> e.StartEvent?
    ensures e.StopEvent? || e.FaultEvent? ==> !r.running
    ensures e.StopEvent? && st.running ==> r.status == Stopped
    ensures !st.running && !e.StartEvent? ==> r == st
    ensures e.StartEvent? && st.running ==> r == st
  {
    match e
    case StartEvent(reg, config, probe) =>
      (match Start(st, reg, config, probe) case Success(s) => s case Failure(_) => st)
    case StopEvent => Stop(st).1
    case TickEvent(fetched) => Tick(st, fetched)
    case FaultEvent(kind, detail) => LoopFault(st, kind, detail)
  }

  /** The state after a sequence of events. Without a `start` among them, a bot whose
      loop is not alive stays exactly as it is. */
  function Run(st: BotState, events: seq<Event>): (r: BotState)
    ensures !st.running && (forall i :: 0 <= i < |events| ==> !events[i].StartEvent?) ==> r == st
    decreases |events|
  {
    if |events| == 0 then st else Run(Apply(st, events[0]), events[1..])
  }

  /** The controller's invariant: the history is within its limit, the status is RUNNING
      exactly while a loop is alive, a live loop has a configuration, and ERROR always
      comes with an error message. */
  ghost predicate Valid(st: BotState) {
    && |st.history| <= HistoryLimit
    && (st.running <==> st.status == Running)
    && (st.running ==> st.config.Some?)
    && (st.status == Error ==> st.errorMessage.Some?)
  }

  lemma InitialValid()
    ensures Valid(Initial)
    ensures Initial.status == Stopped && !Initial.running && Initial.history == []
  {
  }

  lemma ApplyPreservesValid(st: BotState, e: Event)
    requires Valid(st)
    ensures Valid(Apply(st, e))
  {
  }

  /** Every sequence of events keeps the invariant. */
  lemma {:induction false} RunPreservesValid(st: BotState, events: seq<Event>)
    requires Valid(st)
    ensures Valid(Run(st, events))
    decreases |events|
  {
    if |events| > 0 {
      ApplyPreservesValid(st, events[0]);
      RunPreservesValid(Apply(st, events[0]), events[1..]);
    }
  }

  /** In a valid state a loop pass never ends the loop: a failed price fetch is recorded as
      the last operation and the bot keeps running. */
  lemma TickKeepsRunning(st: BotState, fetched: Result<real, string>)
    requires Valid(st)
    requires st.running
    ensures Tick(st, fetched).status == Running && Tick(st, fetched).running
    ensures fetched.Failure? ==> Tick(st, fetched).lastOperation == Some(StrategyFailed(fetched.error))
    ensures fetched.Failure? ==> Tick(st, fetched).history == st.history
  {
  }
}

=== FILE: config.dfy ===
/** Application settings read from the process environment (app/core/config.py). */
module Config {

  import Text

  /** The process environment, after the `.env` file has been loaded into it. */
  type Environment = map<string, string>

  /** `os.getenv(name, default)`: a variable that is set, even to `""`, wins over the default. */
  function Getenv(env: Environment, name: string, default: string): string {
    if name in env then env[name] else default
  }

  /** The testnet flag's reading of a raw value: `raw.lower() in ("true", "1", "t")`. */
  function ParseTestnet(raw: string): (r: bool)
    ensures r <==> Text.CaseVariantOf(raw, "true") || raw == "1" || Text.CaseVariantOf(raw, "t")
  {
    Text.LowerEqualsIffCaseVariant(raw, "true");
    Text.LowerEqualsIffCaseVariant(raw, "1");
    Text.LowerEqualsIffCaseVariant(raw, "t");
    var lowered := Text.Lower(raw);
    lowered == "true" || lowered == "1" || lowered == "t"
  }

  datatype Settings = Settings(
    apiV1Str: string,
    projectName: string,
    binanceApiKey: string,
    binanceApiSecret: string,
    binanceTestnet: bool)

  /** The settings as the class body computes them from the environment. */
  function LoadSettings(env: Environment): (s: Settings)
    ensures s.apiV1Str == "/api" && s.projectName == "Trading Bot Binance API"
    ensures "BINANCE_API_KEY" !in env ==> s.binanceApiKey == ""
    ensures "BINANCE_API_KEY" in env ==> s.binanceApiKey == env["BINANCE_API_KEY"]
    ensures "BINANCE_API_SECRET" !in env ==> s.binanceApiSecret == ""
    ensures "BINANCE_API_SECRET" in env ==> s.binanceApiSecret == env["BINANCE_API_SECRET"]
    ensures "BINANCE_TESTNET" !in env ==> s.binanceTestnet
    ensures "BINANCE_TESTNET" in env ==>
              (s.binanceTestnet <==> Text.CaseVariantOf(env["BINANCE_TESTNET"], "true")
                                     || env["BINANCE_TESTNET"] == "1"
                                     || Text.CaseVariantOf(env["BINANCE_TESTNET"], "t"))
  {
    Settings(
      "/api",
      "Trading Bot Binance API",
      Getenv(env, "BINANCE_API_KEY", ""),
      Getenv(env, "BINANCE_API_SECRET", ""),
      ParseTestnet(Getenv(env, "BINANCE_TESTNET", "True")))
  }

  /** The flag ignores letter case, accepts the three spellings, and nothing else. */
  lemma TestnetSpellings()
    ensures ParseTestnet("True") && ParseTestnet("TRUE") && ParseTestnet("tRuE")
    ensures ParseTestnet("1") && ParseTestnet("t") && ParseTestnet("T")
    ensures !ParseTestnet("yes") && !ParseTestnet("0") && !ParseTestnet("false")
    ensures !ParseTestnet("") && !ParseTestnet("on") && !ParseTestnet(" true")
  {
    assert Text.CaseVariantOf("True", "true");
    assert Text.CaseVariantOf("TRUE", "true");
    assert Text.CaseVariantOf("tRuE", "true");
    assert Text.CaseVariantOf("T", "t");
    assert !Text.CaseVariantOf("yes", "true") && !Text.CaseVariantOf("yes", "t");
    assert !Text.CaseVariantOf("false", "true") && !Text.CaseVariantOf("false", "t");
    assert !Text.CaseVariantOf(" true", "true") && !Text.CaseVariantOf(" true", "t");
    assert " true"[0] != 't';
  }
}

=== FILE: encoding.dfy ===
/** The two encodings behind a wallet id: Python's `str.encode()` (UTF-8) and
    `base64.b64encode` (standard alphabet, `=` padding), each proved injective
    by reading its output back. */
module Encoding {

  import opened Wrappers

  type byte = x: int | 0 <= x < 256

  // ---- UTF-8 ----

  /** The UTF-8 encoding of one Unicode scalar value. */
  function Utf8Char(c: char): (r: seq<byte>)
    ensures 1 <= |r| <= 4
  {
    var cp := c as int;
    if cp < 0x80 then [cp]
    else if cp < 0x800 then [0xC0 + cp / 64, 0x80 + cp % 64]
    else if cp < 0x10000 then [0xE0 + cp / 4096, 0x80 + (cp / 64) % 64, 0x80 + cp % 64]
    else [0xF0 + cp / 262144, 0x80 + (cp / 4096) % 64, 0x80 + (cp / 64) % 64, 0x80 + cp % 64]
  }

  /** How many bytes a UTF-8 sequence starting with lead byte `b` spans. */
  function SequenceLength(b: byte): nat {
    if b < 0x80 then 1 else if b < 0xE0 then 2 else if b < 0xF0 then 3 else 4
  }

  /** The code point a well-formed UTF-8 sequence of one character stands for. */
  function Utf8CodePoint(bs: seq<byte>): int
    requires 1 <= |bs| <= 4
  {
    var b: seq<int> := bs;
    if |b| == 1 then b[0]
    else if |b| == 2 then (b[0] - 0xC0) * 64 + (b[1] - 0x80)
    else if |b| == 3 then (b[0] - 0xE0) * 4096 + (b[1] - 0x80) * 64 + (b[2] - 0x80)
    else (b[0] - 0xF0) * 262144 + (b[1] - 0x80) * 4096 + (b[2] - 0x80) * 64 + (b[3] - 0x80)
  }

  lemma SplitBase64(cp: int)
    requires 0 <= cp
    ensures cp == (cp / 64) * 64 + cp % 64
    ensures cp / 64 == (cp / 4096) * 64 + (cp / 64) % 64
    ensures cp / 4096 == (cp / 262144) * 64 + (cp / 4096) % 64
  {
  }

  /** The lead byte of a character's encoding announces its length, and the
      bytes read back to the character. */
  lemma Utf8CharReadsBack(c: char)
    ensures SequenceLength(Utf8Char(c)[0]) == |Utf8Char(c)|
    ensures Utf8CodePoint(Utf8Char(c)) == c as int
  {
    var cp := c as int;
    SplitBase64(cp);
    assert cp <= 0x10FFFF;
  }

  lemma Utf8CharInjective(c: char, d: char)
    requires Utf8Char(c) == Utf8Char(d)
    ensures c == d
  {
    Utf8CharReadsBack(c);
    Utf8CharReadsBack(d);
  }

  /** Python's `s.encode()`: the UTF-8 encodings of the characters, in order. */
  function Utf8(s: string): (r: seq<byte>)
    ensures |r| >= |s|
  {
    if |s| == 0 then [] else Utf8Char(s[0]) + Utf8(s[1..])
  }

  /** Distinct strings encode to distinct byte strings. */
  lemma {:induction false} Utf8Injective(s: string, t: string)
    requires Utf8(s) == Utf8(t)
    ensures s == t
  {
    if |s| == 0 || |t| == 0 {
      assert |Utf8(s)| == 0 || |Utf8(t)| == 0;
    } else {
      var es, et := Utf8Char(s[0]), Utf8Char(t[0]);
      Utf8CharReadsBack(s[0]);
      Utf8CharReadsBack(t[0]);
      assert Utf8(s)[0] == es[0] && Utf8(t)[0] == et[0];
      assert |es| == |et|;
      assert es == Utf8(s)[..|es|];
      assert et == Utf8(t)[..|et|];
      Utf8CharInjective(s[0], t[0]);
      assert Utf8(s[1..]) == Utf8(s)[|es|..];
      assert Utf8(t[1..]) == Utf8(t)[|et|..];
      Utf8Injective(s[1..], t[1..]);
      assert s == [s[0]] + s[1..];
      assert t == [t[0]] + t[1..];
    }
  }

  // ---- Base64 ----

  /** The standard Base64 alphabet: `A-Z`, `a-z`, `0-9`, `+`, `/`. */
  function Base64Char(i: nat): char
    requires i < 64
  {
    if i < 26 then ('A' as int + i) as char
    else if i < 52 then ('a' as int + i - 26) as char
    else if i < 62 then ('0' as int + i - 52) as char
    else if i == 62 then '+'
    else '/'
  }

  /** The position of `c` in the Base64 alphabet; `None` for padding and foreign characters. */
  function Base64Index(c: char): (r: Option<nat>)
    ensures r.Some? ==> r.value < 64
  {
    if 'A' <= c <= 'Z' then Some(c as int - 'A' as int)
    else if 'a' <= c <= 'z' then Some(c as int - 'a' as int + 26)
    else if '0' <= c <= '9' then Some(c as int - '0' as int + 52)
    else if c == '+' then Some(62)
    else if c == '/' then Some(63)
    else None
  }

  lemma Base64IndexOfChar(i: nat)
    requires i < 64
    ensures Base64Index(Base64Char(i)) == Some(i)
    ensures Base64Char(i) != '='
  {
  }

  /** The four characters for the final single byte `b0`. */
  function QuadOf1(b0: byte): string {
    [Base64Char(b0 / 4), Base64Char((b0 % 4) * 16), '=', '=']
  }

  /** The four characters for the final pair of bytes `b0 b1`. */
  function QuadOf2(b0: byte, b1: byte): string {
    [Base64Char(b0 / 4), Base64Char((b0 % 4) * 16 + b1 / 16), Base64Char((b1 % 16) * 4), '=']
  }

  /** The four characters for a full group of three bytes. */
  function QuadOf3(b0: byte, b1: byte, b2: byte): string {
    [Base64Char(b0 / 4), Base64Char((b0 % 4) * 16 + b1 / 16),
     Base64Char((b1 % 16) * 4 + b2 / 64), Base64Char(b2 % 64)]
  }

  /** Python's `base64.b64encode(bs).decode()`: every three bytes become four
      characters, and a final group of one or two bytes is padded with `=`. */
  function Base64(bs: seq<byte>): (r: string)
    ensures |r| == 4 * ((|bs| + 2) / 3)
    decreases |bs|
  {
    if |bs| == 0 then ""
    else if |bs| == 1 then QuadOf1(bs[0])
    else if |bs| == 2 then QuadOf2(bs[0], bs[1])
    else QuadOf3(bs[0], bs[1], bs[2]) + Base64(bs[3..])
  }

  /** Reads four Base64 characters (possibly padded at the end) back into one to three bytes. */
  function DecodeQuad(q: string): Option<seq<byte>>
    requires |q| == 4
  {
    match (Base64Index(q[0]), Base64Index(q[1]))
    case (Some(a), Some(b)) =>
      if q[2] == '=' && q[3] == '=' then Some([a * 4 + b / 16])
      else
        (match Base64Index(q[2])
         case None => None
         case Some(c) =>
           if q[3] == '=' then Some([a * 4 + b / 16, (b % 16) * 16 + c / 4])
           else
             (match Base64Index(q[3])
              case None => None
              case Some(d) => Some([a * 4 + b / 16, (b % 16) * 16 + c / 4, (c % 4) * 64 + d])))
    case _ => None
  }

  /** Base64 decoding: the inverse of `Base64` on its outputs. */
  function Base64Decode(s: string): Option<seq<byte>>
    decreases |s|
  {
    if |s| == 0 then Some([])
    else if |s| < 4 then None
    else
      match DecodeQuad(s[..4])
      case None => None
      case Some(head) =>
        if |head| < 3 then (if |s| == 4 then Some(head) else None)
        else
          match Base64Decode(s[4..])
          case None => None
          case Some(tail) => Some(head + tail)
  }

  lemma Quad1RoundTrip(b0: byte)
    ensures DecodeQuad(QuadOf1(b0)) == Some([b0])
  {
    Base64IndexOfChar(b0 / 4);
    Base64IndexOfChar((b0 % 4) * 16);
  }

  lemma Quad2RoundTrip(b0: byte, b1: byte)
    ensures DecodeQuad(QuadOf2(b0, b1)) == Some([b0, b1])
  {
    var a, b, c := b0 / 4, (b0 % 4) * 16 + b1 / 16, (b1 % 16) * 4;
    Base64IndexOfChar(a);
    Base64IndexOfChar(b);
    Base64IndexOfChar(c);
    assert a * 4 + b / 16 == b0;
    assert (b % 16) * 16 + c / 4 == b1;
  }

  lemma Quad3RoundTrip(b0: byte, b1: byte, b2: byte)
    ensures DecodeQuad(QuadOf3(b0, b1, b2)) == Some([b0, b1, b2])
  {
    var a, b, c, d := b0 / 4, (b0 % 4) * 16 + b1 / 16, (b1 % 16) * 4 + b2 / 64, b2 % 64;
    Base64IndexOfChar(a);
    Base64IndexOfChar(b);
    Base64IndexOfChar(c);
    Base64IndexOfChar(d);
    assert a * 4 + b / 16 == b0;
    assert (b % 16) * 16 + c / 4 == b1;
    assert (c % 4) * 64 + d == b2;
  }

  lemma DecodeLastQuad(q: string, h: seq<byte>)
    requires |q| == 4 && DecodeQuad(q) == Some(h) && |h| < 3
    ensures Base64Decode(q) == Some(h)
  {
    assert q[..4] == q;
  }

  lemma DecodeFullQuad(q: string, rest: string, h: seq<byte>, t: seq<byte>)
    requires |q| == 4 && DecodeQuad(q) == Some(h) && |h| == 3
    requires Base64Decode(rest) == Some(t)
    ensures Base64Decode(q + rest) == Some(h + t)
  {
    var s := q + rest;
    assert s[..4] == q;
    assert s[4..] == rest;
  }

  lemma Base64OfOne(bs: seq<byte>)
    requires |bs| == 1
    ensures Base64Decode(Base64(bs)) == Some(bs)
  {
    assert Base64(bs) == QuadOf1(bs[0]);
    Quad1RoundTrip(bs[0]);
    DecodeLastQuad(QuadOf1(bs[0]), [bs[0]]);
    assert bs == [bs[0]];
  }

  lemma Base64OfTwo(bs: seq<byte>)
    requires |bs| == 2
    ensures Base64Decode(Base64(bs)) == Some(bs)
  {
    assert Base64(bs) == QuadOf2(bs[0], bs[1]);
    Quad2RoundTrip(bs[0], bs[1]);
    DecodeLastQuad(QuadOf2(bs[0], bs[1]), [bs[0], bs[1]]);
    assert bs == [bs[0], bs[1]];
  }

  lemma Base64Unfold(bs: seq<byte>)
    requires |bs| >= 3
    ensures Base64(bs) == QuadOf3(bs[0], bs[1], bs[2]) + Base64(bs[3..])
  {
  }

  lemma SplitThree(bs: seq<byte>)
    requires |bs| >= 3
    ensures bs == [bs[0], bs[1], bs[2]] + bs[3..]
  {
  }

  /** A leading group of three bytes decodes back in front of whatever the rest decodes to. */
  lemma Base64OfMore(bs: seq<byte>)
    requires |bs| >= 3
    requires Base64Decode(Base64(bs[3..])) == Some(bs[3..])
    ensures Base64Decode(Base64(bs)) == Some(bs)
  {
    var q := QuadOf3(bs[0], bs[1], bs[2]);
    Base64Unfold(bs);
    Quad3RoundTrip(bs[0], bs[1], bs[2]);
    DecodeFullQuad(q, Base64(bs[3..]), [bs[0], bs[1], bs[2]], bs[3..]);
    SplitThree(bs);
  }

  /** Decoding an encoding gives the bytes back. */
  lemma {:induction false} Base64RoundTrip(bs: seq<byte>)
    ensures Base64Decode(Base64(bs)) == Some(bs)
    decreases |bs|
  {
    if |bs| == 0 {
      assert Base64(bs) == "";
    } else if |bs| == 1 {
      Base64OfOne(bs);
    } else if |bs| == 2 {
      Base64OfTwo(bs);
    } else {
      Base64RoundTrip(bs[3..]);
      Base64OfMore(bs);
    }
  }

  /** Distinct byte strings have distinct Base64 encodings. */
  lemma Base64Injective(a: seq<byte>, b: seq<byte>)
    requires Base64(a) == Base64(b)
    ensures a == b
  {
    Base64RoundTrip(a);
    Base64RoundTrip(b);
  }
}

=== FILE: exchange.dfy ===
/** The exchange's replies as the services see them: Python dicts decoded from
    JSON, whose values here are `None`, integers or strings. The helpers give
    `dict.get`, Python truthiness, `str(...)` and `float(...)` on those values. */
module Exchange {

  import opened Wrappers
  import Text

  datatype Value = Null | Int(n: int) | Str(s: string)

  /** A decoded JSON object, such as one order or one balance entry. */
  type Dict = map<string, Value>

  /** Python's `float(text)`. Parsing decimal text is not modelled; it is a parameter,
      and `None` stands for the `ValueError` it raises. */
  type FloatParser = string -> Option<real>

  /** `d.get(key)`: the value, or `None` when the key is absent. */
  function Get(d: Dict, key: string): Value {
    if key in d then d[key] else Null
  }

  /** `d.get(key, default)`. */
  function GetOr(d: Dict, key: string, default: Value): Value {
    if key in d then d[key] else default
  }

  /** Python's truth value: `None`, `0` and `""` are false. */
  function Truthy(v: Value): (b: bool)
    ensures b <==> v != Null && v != Int(0) && v != Str("")
  {
    match v
    case Null => false
    case Int(n) => n != 0
    case Str(s) => s != ""
  }

  /** Python's `str(v)`. */
  function PyStr(v: Value): (r: string)
    ensures v.Str? ==> r == v.s
    ensures v.Null? ==> r == "None"
    ensures v.Int? ==>
              && |r| > 0 && (r[0] == '-' || Text.IsDigit(r[0]))
              && (forall k :: 0 < k < |r| ==> Text.IsDigit(r[k]))
              && Text.DecimalToInt(r) == v.n
  {
    match v
    case Null => "None"
    case Int(n) => Text.DecimalRoundTrip(n); Text.IntToDecimal(n)
    case Str(s) => s
  }

  /** Python's `float(v)`; `None` when it raises (`TypeError` on `None`, `ValueError` on bad text). */
  function ToFloat(v: Value, parse: FloatParser): (r: Option<real>)
    ensures v.Null? ==> r.None?
    ensures v.Int? ==> r == Some(v.n as real)
    ensures v.Str? ==> r == parse(v.s)
  {
    match v
    case Null => None
    case Int(n) => Some(n as real)
    case Str(s) => parse(s)
  }

  /** Two integer order ids give the same `str(...)` key only when they are equal,
      and no integer renders as the placeholders `"None"` or `"unknown"`. */
  lemma PyStrOfIntsDistinct(a: int, b: int)
    ensures PyStr(Int(a)) == PyStr(Int(b)) <==> a == b
    ensures PyStr(Int(a)) != "None" && PyStr(Int(a)) != "unknown"
  {
    Text.IntToDecimalInjective(a, b);
    var r := PyStr(Int(a));
    assert r[0] == '-' || Text.IsDigit(r[0]) by {
      if a >= 0 { assert r == Text.NatDigits(a); }
    }
  }
}

=== FILE: text.dfy ===
/** String helpers the services rely on: Python's `str.lower()` / `str.upper()`
    restricted to ASCII letters, slicing with Python's clamping, and Python's
    `str(int)` decimal rendering together with its inverse. */
module Text {

  predicate IsUpperLetter(c: char) {
    'A' <= c <= 'Z'
  }

  predicate IsLowerLetter(c: char) {
    'a' <= c <= 'z'
  }

  function LowerChar(c: char): char {
    if IsUpperLetter(c) then (c as int + 32) as char else c
  }

  function UpperChar(c: char): char {
    if IsLowerLetter(c) then (c as int - 32) as char else c
  }

  /** Python's `s.lower()` on ASCII letters: upper-case letters become lower case,
      every other character is kept. */
  function Lower(s: string): (r: string)
    ensures |r| == |s|
    ensures forall i :: 0 <= i < |r| ==> !IsUpperLetter(r[i])
    ensures forall i :: 0 <= i < |s| && !IsUpperLetter(s[i]) ==> r[i] == s[i]
  {
    seq(|s|, i requires 0 <= i < |s| => LowerChar(s[i]))
  }

  /** Python's `s.upper()` on ASCII letters: lower-case letters become upper case,
      every other character is kept. */
  function Upper(s: string): (r: string)
    ensures |r| == |s|
    ensures forall i :: 0 <= i < |r| ==> !IsLowerLetter(r[i])
    ensures forall i :: 0 <= i < |s| && !IsLowerLetter(s[i]) ==> r[i] == s[i]
    ensures forall i :: 0 <= i < |s| && IsLowerLetter(s[i]) ==> r[i] as int == s[i] as int - 32
  {
    seq(|s|, i requires 0 <= i < |s| => UpperChar(s[i]))
  }

  /** Upper-casing twice is upper-casing once. */
  lemma UpperIdempotent(s: string)
    ensures Upper(Upper(s)) == Upper(s)
  {
    var u := Upper(s);
    assert forall i :: 0 <= i < |u| ==> !IsLowerLetter(u[i]);
  }

  /** `v` spells `w` with some of its lower-case letters written in upper case:
      the independent reading of "`v.lower() == w`" for a lower-case `w`. */
  predicate CaseVariantOf(v: string, w: string) {
    && |v| == |w|
    && forall i :: 0 <= i < |v| ==> v[i] == w[i] || (IsLowerLetter(w[i]) && v[i] as int == w[i] as int - 32)
  }

  /** For a target without upper-case letters, lowering `v` yields the target exactly
      when `v` is one of its case variants. */
  lemma LowerEqualsIffCaseVariant(v: string, w: string)
    requires forall i :: 0 <= i < |w| ==> !IsUpperLetter(w[i])
    ensures Lower(v) == w <==> CaseVariantOf(v, w)
  {
    if Lower(v) == w {
      forall i | 0 <= i < |v|
        ensures v[i] == w[i] || (IsLowerLetter(w[i]) && v[i] as int == w[i] as int - 32)
      {
        assert LowerChar(v[i]) == w[i];
      }
    }
    if CaseVariantOf(v, w) {
      forall i | 0 <= i < |v|
        ensures Lower(v)[i] == w[i]
      {
        assert Lower(v)[i] == LowerChar(v[i]);
      }
    }
  }

  /** Python's `s[:n]` for `n >= 0`: the first `n` characters, or all of `s` when it is shorter. */
  function Take(s: string, n: nat): (r: string)
    ensures |r| == if |s| < n then |s| else n
    ensures r <= s
  {
    if |s| <= n then s else s[..n]
  }

  /** Python's `s[-n:]` for `n > 0`: the last `n` characters, or all of `s` when it is shorter. */
  function TakeLast(s: string, n: nat): (r: string)
    requires n > 0
    ensures |r| == if |s| < n then |s| else n
    ensures exists k :: 0 <= k <= |s| && r == s[k..]
  {
    if |s| <= n then (assert s == s[0..]; s) else s[|s| - n..]
  }

  // ---- Python's str(int) ----

  predicate IsDigit(c: char) {
    '0' <= c <= '9'
  }

  function DigitChar(d: nat): char
    requires d < 10
  {
    ('0' as int + d) as char
  }

  function DigitValue(c: char): nat
    requires IsDigit(c)
  {
    c as int - '0' as int
  }

  /** Decimal digits of `n`, most significant first, without leading zeros. */
  function NatDigits(n: nat): (r: string)
    ensures |r| > 0
    ensures forall i :: 0 <= i < |r| ==> IsDigit(r[i])
    decreases n
  {
    if n < 10 then [DigitChar(n)] else NatDigits(n / 10) + [DigitChar(n % 10)]
  }

  /** The value of a string of decimal digits. */
  function DigitsValue(s: string): nat
    requires forall i :: 0 <= i < |s| ==> IsDigit(s[i])
    decreases |s|
  {
    if |s| == 0 then 0 else DigitsValue(s[..|s| - 1]) * 10 + DigitValue(s[|s| - 1])
  }

  lemma {:induction false} DigitsValueOfNatDigits(n: nat)
    ensures DigitsValue(NatDigits(n)) == n
    decreases n
  {
    if n >= 10 {
      var r := NatDigits(n);
      assert r[..|r| - 1] == NatDigits(n / 10);
      DigitsValueOfNatDigits(n / 10);
    }
  }

  /** Python's `str(i)` for an integer: a minus sign for negatives, then the digits. */
  function IntToDecimal(i: int): (r: string)
    ensures |r| > 0
    ensures r[0] == '-' <==> i < 0
    ensures r[0] == '-' || IsDigit(r[0])
    ensures forall k :: 0 < k < |r| ==> IsDigit(r[k])
  {
    if i < 0 then "-" + NatDigits(-i) else NatDigits(i)
  }

  /** Reads back what `IntToDecimal` writes. */
  function DecimalToInt(s: string): int
    requires |s| > 0
    requires forall k :: 0 < k < |s| ==> IsDigit(s[k])
    requires s[0] == '-' || IsDigit(s[0])
  {
    if s[0] == '-' then -(DigitsValue(s[1..]) as int) else DigitsValue(s)
  }

  lemma DecimalRoundTrip(i: int)
    ensures DecimalToInt(IntToDecimal(i)) == i
  {
    if i < 0 {
      assert IntToDecimal(i)[1..] == NatDigits(-i);
      DigitsValueOfNatDigits(-i);
    } else {
      DigitsValueOfNatDigits(i);
    }
  }

  /** Distinct integers render as distinct strings. */
  lemma IntToDecimalInjective(i: int, j: int)
    ensures IntToDecimal(i) == IntToDecimal(j) <==> i == j
  {
    if IntToDecimal(i) == IntToDecimal(j) {
      DecimalRoundTrip(i);
      DecimalRoundTrip(j);
    }
  }
}

=== FILE: trading_models.dfy ===
/** Order enums, the order request with its field validators, and the order
    response with its defaults (app/models/trading.py). */
module TradingModels {

  import opened Wrappers
  import Text
  import opened Validation

  // ---- enums; each value is the string the exchange uses ----

  datatype OrderSide = Buy | Sell

  function SideValue(s: OrderSide): string {
    match s
    case Buy => "BUY"
    case Sell => "SELL"
  }

  /** `OrderSide(v)`: the member whose value is `v`, and `None` for the `ValueError` otherwise. */
  function ParseSide(v: string): (r: Option<OrderSide>)
    ensures r.Some? <==> v == "BUY" || v == "SELL"
    ensures r.Some? ==> SideValue(r.value) == v
  {
    if v == "BUY" then Some(Buy) else if v == "SELL" then Some(Sell) else None
  }

  datatype OrderType = Market | Limit

  function TypeValue(t: OrderType): string {
    match t
    case Market => "MARKET"
    case Limit => "LIMIT"
  }

  /** `OrderType(v)`. */
  function ParseType(v: string): (r: Option<OrderType>)
    ensures r.Some? <==> v == "MARKET" || v == "LIMIT"
    ensures r.Some? ==> TypeValue(r.value) == v
  {
    if v == "MARKET" then Some(Market) else if v == "LIMIT" then Some(Limit) else None
  }

  datatype OrderStatus = New | PartiallyFilled | Filled | Canceled | Rejected | Expired

  function StatusValue(s: OrderStatus): string {
    match s
    case New => "NEW"
    case PartiallyFilled => "PARTIALLY_FILLED"
    case Filled => "FILLED"
    case Canceled => "CANCELED"
    case Rejected => "REJECTED"
    case Expired => "EXPIRED"
  }

  const StatusValues: seq<string> := ["NEW", "PARTIALLY_FILLED", "FILLED", "CANCELED", "REJECTED", "EXPIRED"]

  /** `OrderStatus(v)`: exactly the six listed values are accepted, each naming its own member. */
  function ParseStatus(v: string): (r: Option<OrderStatus>)
    ensures r.Some? <==> v in StatusValues
    ensures r.Some? ==> StatusValue(r.value) == v
  {
    if v == "NEW" then Some(New)
    else if v == "PARTIALLY_FILLED" then Some(PartiallyFilled)
    else if v == "FILLED" then Some(Filled)
    else if v == "CANCELED" then Some(Canceled)
    else if v == "REJECTED" then Some(Rejected)
    else if v == "EXPIRED" then Some(Expired)
    else None
  }

  /** Every enum member is reached by parsing its own value, so the value maps are
      injective; and there are exactly six distinct statuses. */
  lemma EnumRoundTrips(side: OrderSide, kind: OrderType, status: OrderStatus)
    ensures ParseSide(SideValue(side)) == Some(side)
    ensures ParseType(TypeValue(kind)) == Some(kind)
    ensures ParseStatus(StatusValue(status)) == Some(status)
    ensures StatusValue(status) in StatusValues
    ensures |StatusValues| == 6
    ensures forall i, j :: 0 <= i < j < |StatusValues| ==> StatusValues[i] != StatusValues[j]
  {
  }

  // ---- OrderRequest ----

  datatype OrderRequest = OrderRequest(symbol: string, quantity: real, price: Option<real>, walletId: string)

  const QuantityMessage := "A quantidade deve ser maior que zero"
  const PriceMessage := "O preço deve ser maior que zero"

  /** The `symbol` validator: the symbol in upper case (never rejects). Each lower-case
      letter becomes its upper-case letter and every other character is kept. */
  function NormalizeSymbol(symbol: string): (r: string)
    ensures |r| == |symbol|
    ensures forall i :: 0 <= i < |r| ==> !Text.IsLowerLetter(r[i])
    ensures forall i :: 0 <= i < |symbol| && !Text.IsLowerLetter(symbol[i]) ==> r[i] == symbol[i]
    ensures forall i :: 0 <= i < |symbol| && Text.IsLowerLetter(symbol[i]) ==> r[i] as int == symbol[i] as int - 32
    ensures Text.Upper(r) == r
  {
    Text.UpperIdempotent(symbol);
    Text.Upper(symbol)
  }

  /** The `quantity` validator. */
  function CheckQuantity(quantity: real): (r: Result<real, FieldError>)
    ensures r.Success? <==> quantity > 0.0
    ensures r.Success? ==> r.value == quantity
  {
    if quantity <= 0.0 then Failure(FieldError("quantity", QuantityMessage)) else Success(quantity)
  }

  /** The `price` validator: `None` passes, a present price must be positive. */
  function CheckPrice(price: Option<real>): (r: Result<Option<real>, FieldError>)
    ensures r.Success? <==> price.None? || price.value > 0.0
    ensures r.Success? ==> r.value == price
  {
    if price.Some? && price.value <= 0.0 then Failure(FieldError("price", PriceMessage)) else Success(price)
  }

  /** Builds an `OrderRequest`, running every field validator and reporting every field
      that fails, as pydantic does. */
  function ValidateOrderRequest(symbol: string, quantity: real, price: Option<real>, walletId: string)
    : (r: Result<OrderRequest, seq<FieldError>>)
    ensures r.Success? <==> quantity > 0.0 && (price.None? || price.value > 0.0)
    ensures r.Success? ==> r.value == OrderRequest(Text.Upper(symbol), quantity, price, walletId)
    ensures r.Failure? ==> ("quantity" in FailedFields(r.error) <==> quantity <= 0.0)
    ensures r.Failure? ==> ("price" in FailedFields(r.error) <==> price.Some? && price.value <= 0.0)
    ensures r.Failure? ==> FailedFields(r.error) <= {"quantity", "price"}
  {
    var q := CheckQuantity(quantity);
    var p := CheckPrice(price);
    var errors := (if q.Failure? then [q.error] else []) + (if p.Failure? then [p.error] else []);
    if errors == [] then Success(OrderRequest(NormalizeSymbol(symbol), quantity, price, walletId))
    else Failure(errors)
  }

  // ---- OrderResponse ----

  /** A creation or update time: converted from the exchange's epoch milliseconds, or
      the current clock. Rendering it as ISO text is not modelled. */
  datatype Timestamp = ExchangeMillis(ms: int) | CurrentTime

  datatype OrderResponse = OrderResponse(
    orderId: string,
    symbol: string,
    side: OrderSide,
    orderType: OrderType,
    status: OrderStatus,
    quantity: real,
    price: Option<real>,
    executedQuantity: real,
    cumulativeQuoteQuantity: real,
    createdAt: Timestamp,
    updatedAt: Option<Timestamp>)

  /** An `OrderResponse` built from its required fields only: the optional ones take
      their declared defaults. */
  function ResponseWithDefaults(
    orderId: string, symbol: string, side: OrderSide, orderType: OrderType,
    status: OrderStatus, quantity: real, createdAt: Timestamp): (r: OrderResponse)
    ensures r.price.None? && r.updatedAt.None?
    ensures r.executedQuantity == 0.0 && r.cumulativeQuoteQuantity == 0.0
    ensures r.orderId == orderId && r.symbol == symbol && r.side == side
    ensures r.orderType == orderType && r.status == status && r.quantity == quantity && r.createdAt == createdAt
  {
    OrderResponse(orderId, symbol, side, orderType, status, quantity, None, 0.0, 0.0, createdAt, None)
  }
}

=== FILE: trading_service.dfy ===
/** Order placement, listing and normalisation (app/core/trading_service.py).

    The exchange is outside the model: what `create_order` / `get_all_orders` returned
    (or the text of what they raised) is an input, and the service keeps its local order
    history as a map from order-id text to the raw reply. */
module TradingService {

  import opened Wrappers
  import opened Exchange
  import opened TradingModels
  import WalletService

  /** The local order history `_orders`. */
  type OrderBook = map<string, Dict>

  /** The exceptions that can arise inside the service's `try` blocks. */
  datatype Raised =
    | NotFoundException(walletId: string)       // wallet missing from the registry
    | ClientError(detail: string)               // raised by the exchange client
    | KeyError(key: string)                     // `reply["orderId"]` on a reply without it
    | TypeError                                 // comparing `time` values that are not all integers
    | ConversionError                           // `float(...)` of a value it rejects
    | ValidationError                           // a field pydantic rejects
    | BinanceApiException(prefix: string, cause: Raised)

  const BuyPrefix := "Erro ao executar ordem de compra: "
  const SellPrefix := "Erro ao executar ordem de venda: "
  const ListPrefix := "Erro ao obter ordens: "

  /** The `except Exception as e: raise BinanceAPIException(prefix + str(e))` around each operation. */
  function Wrap(prefix: string, e: Raised): Raised {
    BinanceApiException(prefix, e)
  }

  // ---- _create_order_response ----

  /** Reads a field that must be text. */
  function TextField(d: Dict, key: string): Option<string> {
    match Get(d, key)
    case Str(s) => Some(s)
    case _ => None
  }

  /** `float(d.get(key, 0))`: an absent amount reads as 0. */
  function AmountOrZero(d: Dict, key: string, parse: FloatParser): (r: Option<real>)
    ensures key !in d ==> r == Some(0.0)
    ensures key in d ==> r == ToFloat(d[key], parse)
  {
    ToFloat(GetOr(d, key, Int(0)), parse)
  }

  /** A time field: converted from epoch milliseconds when truthy, which needs an integer. */
  function TimeField(d: Dict, key: string): Option<Option<Timestamp>> {
    var v := Get(d, key);
    if !Truthy(v) then Some(None)
    else if v.Int? then Some(Some(ExchangeMillis(v.n)))
    else None
  }

  /** The symbol is text and the side, type and status are text naming enum members. */
  ghost predicate HeaderReadable(d: Dict) {
    && TextField(d, "symbol").Some?
    && TextField(d, "side").Some? && ParseSide(TextField(d, "side").value).Some?
    && TextField(d, "type").Some? && ParseType(TextField(d, "type").value).Some?
    && TextField(d, "status").Some? && ParseStatus(TextField(d, "status").value).Some?
  }

  /** The quantity converts, a truthy price converts, and the executed and cumulative
      amounts convert (or are absent). */
  ghost predicate AmountsReadable(d: Dict, parse: FloatParser) {
    && ToFloat(Get(d, "origQty"), parse).Some?
    && (Truthy(Get(d, "price")) ==> ToFloat(Get(d, "price"), parse).Some?)
    && AmountOrZero(d, "executedQty", parse).Some?
    && AmountOrZero(d, "cummulativeQuoteQty", parse).Some?
  }

  /** Truthy creation and update times are integers. */
  ghost predicate TimesReadable(d: Dict) {
    TimeField(d, "time").Some? && TimeField(d, "updateTime").Some?
  }

  /** Every field of the full conversion reads without raising. */
  ghost predicate Convertible(d: Dict, parse: FloatParser) {
    HeaderReadable(d) && AmountsReadable(d, parse) && TimesReadable(d)
  }

  datatype Header = Header(symbol: string, side: OrderSide, orderType: OrderType, status: OrderStatus)

  function ReadHeader(d: Dict): (r: Option<Header>)
    ensures r.Some? <==> HeaderReadable(d)
    ensures r.Some? ==>
              && Get(d, "symbol") == Str(r.value.symbol)
              && Get(d, "side") == Str(SideValue(r.value.side))
              && Get(d, "type") == Str(TypeValue(r.value.orderType))
              && Get(d, "status") == Str(StatusValue(r.value.status))
  {
    var symbol := TextField(d, "symbol");
    var side := if TextField(d, "side").Some? then ParseSide(TextField(d, "side").value) else None;
    var kind := if TextField(d, "type").Some? then ParseType(TextField(d, "type").value) else None;
    var status := if TextField(d, "status").Some? then ParseStatus(TextField(d, "status").value) else None;
    if symbol.Some? && side.Some? && kind.Some? && status.Some?
    then Some(Header(symbol.value, side.value, kind.value, status.value))
    else None
  }

  datatype Amounts = Amounts(quantity: real, price: Option<real>, executed: real, cumulative: real)

  function ReadAmounts(d: Dict, parse: FloatParser): (r: Option<Amounts>)
    ensures r.Some? <==> AmountsReadable(d, parse)
    ensures r.Some? ==>
              && ToFloat(Get(d, "origQty"), parse) == Some(r.value.quantity)
              && (r.value.price.None? <==> !Truthy(Get(d, "price")))
              && (r.value.price.Some? ==> ToFloat(d["price"], parse) == r.value.price)
              && ("executedQty" !in d ==> r.value.executed == 0.0)
              && ("cummulativeQuoteQty" !in d ==> r.value.cumulative == 0.0)
              && ("executedQty" in d ==> ToFloat(d["executedQty"], parse) == Some(r.value.executed))
              && ("cummulativeQuoteQty" in d ==> ToFloat(d["cummulativeQuoteQty"], parse) == Some(r.value.cumulative))
  {
    var quantity := ToFloat(Get(d, "origQty"), parse);
    var price := if Truthy(Get(d, "price")) then ToFloat(GetOr(d, "price", Int(0)), parse) else Some(0.0);
    var executed := AmountOrZero(d, "executedQty", parse);
    var cumulative := AmountOrZero(d, "cummulativeQuoteQty", parse);
    if quantity.Some? && price.Some? && executed.Some? && cumulative.Some?
    then Some(Amounts(quantity.value, if Truthy(Get(d, "price")) then Some(price.value) else None,
                      executed.value, cumulative.value))
    else None
  }

  datatype Times = Times(created: Timestamp, updated: Option<Timestamp>)

  function ReadTimes(d: Dict): (r: Option<Times>)
    ensures r.Some? <==> TimesReadable(d)
    ensures r.Some? ==>
              && (r.value.created == CurrentTime <==> !Truthy(Get(d, "time")))
              && (Truthy(Get(d, "time")) ==> r.value.created == ExchangeMillis(d["time"].n))
              && (r.value.updated.None? <==> !Truthy(Get(d, "updateTime")))
              && (Truthy(Get(d, "updateTime")) ==> r.value.updated == Some(ExchangeMillis(d["updateTime"].n)))
  {
    var created := TimeField(d, "time");
    var updated := TimeField(d, "updateTime");
    if created.Some? && updated.Some? then Some(Times(created.value.GetOr(CurrentTime), updated.value))
    else None
  }

  /** The full field-by-field conversion; `None` when any field raises. */
  function ConvertOrder(d: Dict, parse: FloatParser): (r: Option<OrderResponse>)
    ensures r.Some? <==> Convertible(d, parse)
    ensures r.Some? ==>
              && r.value.orderId == PyStr(Get(d, "orderId"))
              && Get(d, "symbol") == Str(r.value.symbol)
              && Get(d, "side") == Str(SideValue(r.value.side))
              && Get(d, "type") == Str(TypeValue(r.value.orderType))
              && Get(d, "status") == Str(StatusValue(r.value.status))
              && ToFloat(Get(d, "origQty"), parse) == Some(r.value.quantity)
              && (r.value.price.None? <==> !Truthy(Get(d, "price")))
              && (r.value.price.Some? ==> ToFloat(d["price"], parse) == r.value.price)
              && ("executedQty" !in d ==> r.value.executedQuantity == 0.0)
              && ("cummulativeQuoteQty" !in d ==> r.value.cumulativeQuoteQuantity == 0.0)
              && ("executedQty" in d ==> ToFloat(d["executedQty"], parse) == Some(r.value.executedQuantity))
              && ("cummulativeQuoteQty" in d ==>
                    ToFloat(d["cummulativeQuoteQty"], parse) == Some(r.value.cumulativeQuoteQuantity))
              && (r.value.createdAt == CurrentTime <==> !Truthy(Get(d, "time")))
              && (Truthy(Get(d, "time")) ==> r.value.createdAt == ExchangeMillis(d["time"].n))
              && (r.value.updatedAt.None? <==> !Truthy(Get(d, "updateTime")))
              && (Truthy(Get(d, "updateTime")) ==> r.value.updatedAt == Some(ExchangeMillis(d["updateTime"].n)))
  {
    match (ReadHeader(d), ReadAmounts(d, parse), ReadTimes(d))
    case (Some(h), Some(a), Some(t)) =>
      Some(OrderResponse(
        PyStr(Get(d, "orderId")), h.symbol, h.side, h.orderType, h.status,
        a.quantity, a.price, a.executed, a.cumulative, t.created, t.updated))
    case _ => None
  }

  /** The basic response built when the full conversion raised: BUY / MARKET / NEW with the
      declared defaults, "unknown" for a missing id or symbol, and 0 for a missing quantity.
      It raises in turn when the quantity does not convert or the symbol is not text. */
  function FallbackResponse(d: Dict, parse: FloatParser): (r: Result<OrderResponse, Raised>)
    ensures r.Success? <==>
              ToFloat(GetOr(d, "origQty", Int(0)), parse).Some? && GetOr(d, "symbol", Str("unknown")).Str?
    ensures r.Success? ==>
              && r.value.side == Buy && r.value.orderType == Market && r.value.status == New
              && r.value.price.None? && r.value.updatedAt.None? && r.value.createdAt == CurrentTime
              && r.value.executedQuantity == 0.0 && r.value.cumulativeQuoteQuantity == 0.0
              && ("orderId" !in d ==> r.value.orderId == "unknown")
              && ("orderId" in d ==> r.value.orderId == PyStr(d["orderId"]))
              && ("symbol" !in d ==> r.value.symbol == "unknown")
              && ("symbol" in d ==> d["symbol"] == Str(r.value.symbol))
              && ("origQty" !in d ==> r.value.quantity == 0.0)
              && ("origQty" in d ==> ToFloat(d["origQty"], parse) == Some(r.value.quantity))
  {
    var orderId := PyStr(GetOr(d, "orderId", Str("unknown")));
    var symbol := GetOr(d, "symbol", Str("unknown"));
    match ToFloat(GetOr(d, "origQty", Int(0)), parse)
    case None => Failure(ConversionError)
    case Some(quantity) =>
      if !symbol.Str? then Failure(ValidationError)
      else Success(ResponseWithDefaults(orderId, symbol.s, Buy, Market, New, quantity, CurrentTime))
  }

  /** `_create_order_response`: the full conversion, or the fallback when it raises. */
  function CreateOrderResponse(d: Dict, parse: FloatParser): (r: Result<OrderResponse, Raised>)
    ensures Convertible(d, parse) ==> r == Success(ConvertOrder(d, parse).value)
    ensures !Convertible(d, parse) ==> r == FallbackResponse(d, parse)
    ensures r.Failure? ==> r.error == ConversionError || r.error == ValidationError
  {
    match ConvertOrder(d, parse)
    case Some(resp) => Success(resp)
    case None => FallbackResponse(d, parse)
  }

  /** A reply whose side cannot be read is reported as a BUY, whatever it was: the
      fallback loses the side of an order whose other fields are malformed. */
  lemma FallbackReportsBuy(d: Dict, parse: FloatParser)
    requires !Convertible(d, parse)
    requires CreateOrderResponse(d, parse).Success?
    ensures CreateOrderResponse(d, parse).value.side == Buy
    ensures CreateOrderResponse(d, parse).value.status == New
  {
  }

  // ---- placing orders ----

  datatype OrderKind = MarketOrder | LimitOrder(price: real, timeInForce: string)

  /** The keyword arguments passed to `create_order`. */
  datatype OrderParams = OrderParams(symbol: string, side: OrderSide, quantity: real, kind: OrderKind)

  /** A price selects a good-till-cancelled LIMIT order at that price; no price, a MARKET order. */
  function OrderParamsFor(side: OrderSide, symbol: string, quantity: real, price: Option<real>): (p: OrderParams)
    ensures p.symbol == symbol && p.side == side && p.quantity == quantity
    ensures p.kind.LimitOrder? <==> price.Some?
    ensures p.kind.LimitOrder? ==> p.kind.price == price.value && p.kind.timeInForce == "GTC"
  {
    match price
    case Some(limit) => OrderParams(symbol, side, quantity, LimitOrder(limit, "GTC"))
    case None => OrderParams(symbol, side, quantity, MarketOrder)
  }

  /** What a placement returned or raised, the request it sent (if it got that far), and the
      order history afterwards. */
  datatype Placement = Placement(result: Result<OrderResponse, Raised>, sent: Option<OrderParams>, book: OrderBook)

  function PlacePrefix(side: OrderSide): string {
    match side
    case Buy => BuyPrefix
    case Sell => SellPrefix
  }

  /** `place_buy_order` / `place_sell_order` for the given side. `reply` is what building the
      client and calling `create_order` gave. */
  function PlaceOrder(
    book: OrderBook, reg: WalletService.Registry, side: OrderSide, symbol: string, quantity: real,
    walletId: string, price: Option<real>, reply: Result<Dict, string>, parse: FloatParser)
    : (out: Placement)
    ensures WalletService.GetWallet(reg, walletId).None? ==>
              out == Placement(Failure(Wrap(PlacePrefix(side), NotFoundException(walletId))), None, book)
    ensures WalletService.GetWallet(reg, walletId).Some? ==>
              out.sent == Some(OrderParamsFor(side, symbol, quantity, price))
    ensures out.result.Failure? ==>
              out.result.error.BinanceApiException? && out.result.error.prefix == PlacePrefix(side)
    ensures out.result.Success? <==>
              && out.sent.Some? && reply.Success? && "orderId" in reply.value
              && CreateOrderResponse(reply.value, parse).Success?
    ensures out.result.Success? ==> out.result.value == CreateOrderResponse(reply.value, parse).value
    ensures out.sent.Some? && reply.Failure? ==>
              out.result == Failure(Wrap(PlacePrefix(side), ClientError(reply.error)))
    ensures out.sent.Some? && reply.Success? && "orderId" !in reply.value ==>
              out.result == Failure(Wrap(PlacePrefix(side), KeyError("orderId")))
    ensures out.sent.Some? && reply.Success? && "orderId" in reply.value && CreateOrderResponse(reply.value, parse).Failure? ==>
              out.result == Failure(Wrap(PlacePrefix(side), CreateOrderResponse(reply.value, parse).error))
    ensures out.book == book || (reply.Success? && "orderId" in reply.value)
    ensures reply.Success? && "orderId" in reply.value && out.sent.Some? ==>
              && var key := PyStr(reply.value["orderId"]);
              && out.book.Keys == book.Keys + {key}
              && out.book[key] == reply.value
              && (forall k :: k in book && k != key ==> out.book[k] == book[k])
  {
    if WalletService.GetWallet(reg, walletId).None? then
      Placement(Failure(Wrap(PlacePrefix(side), NotFoundException(walletId))), None, book)
    else
      var params := OrderParamsFor(side, symbol, quantity, price);
      match reply
      case Failure(e) => Placement(Failure(Wrap(PlacePrefix(side), ClientError(e))), Some(params), book)
      case Success(d) =>
        if "orderId" !in d then
          Placement(Failure(Wrap(PlacePrefix(side), KeyError("orderId"))), Some(params), book)
        else
          var book' := book[PyStr(d["orderId"]) := d];
          Placement(CreateOrderResponse(d, parse).MapFailure(e => Wrap(PlacePrefix(side), e)), Some(params), book')
  }

  /** A successful placement stored the reply under the id the response reports, and
      converting that stored reply gives the response again. */
  lemma PlacedOrderIsRecorded(
    book: OrderBook, reg: WalletService.Registry, side: OrderSide, symbol: string, quantity: real,
    walletId: string, price: Option<real>, reply: Result<Dict, string>, parse: FloatParser)
    ensures
      var out := PlaceOrder(book, reg, side, symbol, quantity, walletId, price, reply, parse);
      out.result.Success? ==>
        && out.result.value.orderId in out.book
        && CreateOrderResponse(out.book[out.result.value.orderId], parse) == out.result
  {
    var out := PlaceOrder(book, reg, side, symbol, quantity, walletId, price, reply, parse);
    if out.result.Success? {
      var d := reply.value;
      assert Get(d, "orderId") == d["orderId"];
      assert out.result.value.orderId == PyStr(d["orderId"]);
    }
  }

  /** `place_buy_order`. */
  function PlaceBuyOrder(
    book: OrderBook, reg: WalletService.Registry, symbol: string, quantity: real, walletId: string,
    price: Option<real>, reply: Result<Dict, string>, parse: FloatParser): (out: Placement)
    ensures out.sent.Some? ==> out.sent.value.side == Buy
  {
    PlaceOrder(book, reg, Buy, symbol, quantity, walletId, price, reply, parse)
  }

  /** `place_sell_order`. */
  function PlaceSellOrder(
    book: OrderBook, reg: WalletService.Registry, symbol: string, quantity: real, walletId: string,
    price: Option<real>, reply: Result<Dict, string>, parse: FloatParser): (out: Placement)
    ensures out.sent.Some? ==> out.sent.value.side == Sell
  {
    PlaceOrder(book, reg, Sell, symbol, quantity, walletId, price, reply, parse)
  }

  /** Buying and selling send the same request but for its side, leave the same history,
      and succeed or fail together (with their own message prefix). */
  lemma BuyAndSellDifferOnlyInSide(
    book: OrderBook, reg: WalletService.Registry, symbol: string, quantity: real, walletId: string,
    price: Option<real>, reply: Result<Dict, string>, parse: FloatParser)
    ensures
      var b := PlaceBuyOrder(book, reg, symbol, quantity, walletId, price, reply, parse);
      var s := PlaceSellOrder(book, reg, symbol, quantity, walletId, price, reply, parse);
      && b.book == s.book
      && b.sent.Some? == s.sent.Some?
      && (b.sent.Some? ==> s.sent.value == b.sent.value.(side := Sell))
      && b.result.Success? == s.result.Success?
      && (b.result.Success? ==> b.result.value == s.result.value)
      && (b.result.Failure? ==> b.result.error.cause == s.result.error.cause)
  {
  }

  // ---- listing orders ----

  /** The symbols queried when no symbol is given. */
  const DefaultSymbols: seq<string> := ["BTCUSDT", "ETHUSDT", "BNBUSDT"]

  /** The orders of every symbol whose query succeeded, in symbol order; a failed
      query contributes nothing. */
  function FetchAll(fetch: string -> Result<seq<Dict>, string>, symbols: seq<string>): (r: seq<Dict>)
    ensures forall s, d :: s in symbols && fetch(s).Success? && d in fetch(s).value ==> d in r
    ensures forall d :: d in r ==> exists s :: s in symbols && fetch(s).Success? && d in fetch(s).value
    decreases |symbols|
  {
    if |symbols| == 0 then []
    else
      var tail := FetchAll(fetch, symbols[1..]);
      assert forall s :: s in symbols[1..] ==> s in symbols;
      assert forall s :: s in symbols ==> s == symbols[0] || s in symbols[1..];
      match fetch(symbols[0])
      case Success(orders) => orders + tail
      case Failure(_) => tail
  }

  /** The orders one symbol's query contributes: its orders, or nothing when it failed. */
  function OrdersOf(fetch: string -> Result<seq<Dict>, string>, symbol: string): seq<Dict> {
    if fetch(symbol).Success? then fetch(symbol).value else []
  }

  /** Gathering is symbol by symbol: the orders for a concatenation of symbol lists are
      the orders for each list, in order (the `orders.extend` loop). */
  lemma {:induction false} FetchAllAppend(fetch: string -> Result<seq<Dict>, string>, a: seq<string>, b: seq<string>)
    ensures FetchAll(fetch, a + b) == FetchAll(fetch, a) + FetchAll(fetch, b)
    decreases |a|
  {
    if |a| == 0 {
      assert a + b == b;
    } else {
      assert (a + b)[0] == a[0];
      assert (a + b)[1..] == a[1..] + b;
      FetchAllAppend(fetch, a[1..], b);
    }
  }

  /** A single symbol contributes exactly its own orders, each once. */
  lemma FetchAllOfOne(fetch: string -> Result<seq<Dict>, string>, symbol: string)
    ensures FetchAll(fetch, [symbol]) == OrdersOf(fetch, symbol)
  {
    assert [symbol][1..] == [];
  }

  /** Every `time` value is an integer or absent, so Python's sort can compare them. */
  predicate IntegerTimes(orders: seq<Dict>) {
    forall i :: 0 <= i < |orders| ==> GetOr(orders[i], "time", Int(0)).Int?
  }

  /** The sort key `order.get('time', 0)`, read as an integer. */
  function TimeKey(d: Dict): (k: int)
    ensures "time" !in d ==> k == 0
    ensures GetOr(d, "time", Int(0)).Int? ==> GetOr(d, "time", Int(0)) == Int(k)
  {
    match GetOr(d, "time", Int(0))
    case Int(n) => n
    case _ => 0
  }

  predicate NewestFirst(orders: seq<Dict>) {
    forall i, j :: 0 <= i < j < |orders| ==> TimeKey(orders[i]) >= TimeKey(orders[j])
  }

  /** Places `d` in front of the first order that is not newer than it. */
  function InsertByTime(d: Dict, sorted: seq<Dict>): (r: seq<Dict>)
    ensures multiset(r) == multiset(sorted) + multiset{d}
    ensures |r| == |sorted| + 1
    ensures forall x :: x in r ==> x == d || x in sorted
    decreases |sorted|
  {
    if |sorted| == 0 || TimeKey(d) >= TimeKey(sorted[0]) then [d] + sorted
    else
      assert sorted == [sorted[0]] + sorted[1..];
      [sorted[0]] + InsertByTime(d, sorted[1..])
  }

  /** A newest-first list stays newest-first with an order at least as new in front. */
  lemma PrependNewest(d: Dict, sorted: seq<Dict>)
    requires NewestFirst(sorted)
    requires forall x :: x in sorted ==> TimeKey(x) <= TimeKey(d)
    ensures NewestFirst([d] + sorted)
  {
    var r := [d] + sorted;
    forall i, j | 0 <= i < j < |r| ensures TimeKey(r[i]) >= TimeKey(r[j]) {
      assert r[j] == sorted[j - 1] && r[j] in sorted;
      if i > 0 {
        assert r[i] == sorted[i - 1];
      }
    }
  }

  lemma NewestFirstTail(sorted: seq<Dict>)
    requires NewestFirst(sorted) && |sorted| > 0
    ensures NewestFirst(sorted[1..])
    ensures forall x :: x in sorted[1..] ==> TimeKey(x) <= TimeKey(sorted[0])
  {
    var tail := sorted[1..];
    forall i, j | 0 <= i < j < |tail| ensures TimeKey(tail[i]) >= TimeKey(tail[j]) {
      assert tail[i] == sorted[i + 1] && tail[j] == sorted[j + 1];
    }
    forall x | x in tail ensures TimeKey(x) <= TimeKey(sorted[0]) {
      var k :| 0 <= k < |tail| && tail[k] == x;
      assert tail[k] == sorted[k + 1];
    }
  }

  lemma {:induction false} InsertKeepsNewestFirst(d: Dict, sorted: seq<Dict>)
    requires NewestFirst(sorted)
    ensures NewestFirst(InsertByTime(d, sorted))
    decreases |sorted|
  {
    if |sorted| == 0 || TimeKey(d) >= TimeKey(sorted[0]) {
      if |sorted| > 0 {
        NewestFirstTail(sorted);
        assert sorted == [sorted[0]] + sorted[1..];
      }
      PrependNewest(d, sorted);
    } else {
      var tail := sorted[1..];
      NewestFirstTail(sorted);
      InsertKeepsNewestFirst(d, tail);
      PrependNewest(sorted[0], InsertByTime(d, tail));
    }
  }

  /** `sorted(orders, key=lambda x: x.get('time', 0), reverse=True)`: newest first, same orders. */
  function SortNewestFirst(orders: seq<Dict>): (r: seq<Dict>)
    ensures NewestFirst(r)
    ensures multiset(r) == multiset(orders)
    ensures |r| == |orders|
    decreases |orders|
  {
    if |orders| == 0 then []
    else
      assert orders == [orders[0]] + orders[1..];
      var tail := SortNewestFirst(orders[1..]);
      InsertKeepsNewestFirst(orders[0], tail);
      InsertByTime(orders[0], tail)
  }

  /** The `str(order["orderId"])` key of each order, or `None` when it has no id. */
  function OrderKey(d: Dict): Option<string> {
    if "orderId" in d then Some(PyStr(d["orderId"])) else None
  }

  /** The loop `for order in orders: self._orders[str(order["orderId"])] = order`. It stops
      with a `KeyError` at the first order without an id, keeping what it stored before. */
  function RecordOrders(book: OrderBook, orders: seq<Dict>): (r: (OrderBook, Option<Raised>))
    ensures r.1.None? <==> AllKeyed(orders)
    ensures r.1.Some? ==> r.1.value == KeyError("orderId")
    ensures forall k :: k in book ==> k in r.0
    decreases |orders|
  {
    if |orders| == 0 then (book, None)
    else if "orderId" !in orders[0] then (book, Some(KeyError("orderId")))
    else
      var r := RecordOrders(book[PyStr(orders[0]["orderId"]) := orders[0]], orders[1..]);
      assert forall i :: 1 <= i < |orders| ==> orders[i] == orders[1..][i - 1];
      r
  }

  predicate AllKeyed(orders: seq<Dict>) {
    forall i :: 0 <= i < |orders| ==> OrderKey(orders[i]).Some?
  }

  /** The history after recording orders that all have ids holds the id of each. */
  lemma {:induction false} RecordOrdersCovers(book: OrderBook, orders: seq<Dict>)
    requires AllKeyed(orders)
    ensures forall i :: 0 <= i < |orders| ==> OrderKey(orders[i]).value in RecordOrders(book, orders).0
    decreases |orders|
  {
    if |orders| > 0 {
      var key := OrderKey(orders[0]).value;
      var rest := orders[1..];
      assert forall i :: 0 <= i < |rest| ==> rest[i] == orders[i + 1];
      RecordOrdersCovers(book[key := orders[0]], rest);
      assert RecordOrders(book, orders) == RecordOrders(book[key := orders[0]], rest);
    }
  }

  /** Each order is stored under its id unless a later order with the same id replaced it. */
  lemma {:induction false} RecordOrdersStores(book: OrderBook, orders: seq<Dict>, i: int)
    requires AllKeyed(orders)
    requires 0 <= i < |orders|
    requires forall j :: i < j < |orders| ==> OrderKey(orders[j]) != OrderKey(orders[i])
    ensures OrderKey(orders[i]).value in RecordOrders(book, orders).0
    ensures RecordOrders(book, orders).0[OrderKey(orders[i]).value] == orders[i]
    decreases |orders|
  {
    var key := OrderKey(orders[0]).value;
    var book1 := book[key := orders[0]];
    var rest := orders[1..];
    assert forall j :: 0 <= j < |rest| ==> rest[j] == orders[j + 1];
    assert RecordOrders(book, orders) == RecordOrders(book1, rest);
    if i == 0 {
      RecordOrdersKeeps(book1, rest, key);
    } else {
      RecordOrdersStores(book1, rest, i - 1);
    }
  }

  /** An entry whose id no recorded order carries is left as it was. */
  lemma {:induction false} RecordOrdersKeeps(book: OrderBook, orders: seq<Dict>, k: string)
    requires AllKeyed(orders)
    requires k in book
    requires forall i :: 0 <= i < |orders| ==> OrderKey(orders[i]) != Some(k)
    ensures k in RecordOrders(book, orders).0
    ensures RecordOrders(book, orders).0[k] == book[k]
    decreases |orders|
  {
    if |orders| > 0 {
      var key := OrderKey(orders[0]).value;
      var rest := orders[1..];
      assert forall j :: 0 <= j < |rest| ==> rest[j] == orders[j + 1];
      assert RecordOrders(book, orders) == RecordOrders(book[key := orders[0]], rest);
      RecordOrdersKeeps(book[key := orders[0]], rest, k);
    }
  }

  /** `responses` are the orders' conversions, one to one and in order. */
  predicate ConvertedFrom(responses: seq<OrderResponse>, orders: seq<Dict>, parse: FloatParser) {
    && |responses| == |orders|
    && forall i :: 0 <= i < |orders| ==>
         CreateOrderResponse(orders[i], parse).Success? && responses[i] == CreateOrderResponse(orders[i], parse).value
  }

  /** Applies `f` to each element in order, stopping at the first failure. */
  function MapResults<T, U>(xs: seq<T>, f: T -> Result<U, Raised>): (r: Result<seq<U>, Raised>)
    ensures r.Success? <==> forall i :: 0 <= i < |xs| ==> f(xs[i]).Success?
    ensures r.Success? ==> |r.value| == |xs| && forall i :: 0 <= i < |xs| ==> r.value[i] == f(xs[i]).value
    ensures r.Failure? ==>
              exists i :: 0 <= i < |xs| && f(xs[i]).Failure? && r.error == f(xs[i]).error
                          && forall j :: 0 <= j < i ==> f(xs[j]).Success?
    decreases |xs|
  {
    if |xs| == 0 then Success([])
    else
      var head := f(xs[0]);
      var tail := MapResults(xs[1..], f);
      assert forall i :: 1 <= i < |xs| ==> xs[i] == xs[1..][i - 1];
      if head.Failure? then Failure(head.error)
      else if tail.Failure? then
        var k :| 0 <= k < |xs[1..]| && f(xs[1..][k]).Failure? && tail.error == f(xs[1..][k]).error
                 && forall j :: 0 <= j < k ==> f(xs[1..][j]).Success?;
        assert f(xs[k + 1]).Failure? && forall j :: 0 <= j < k + 1 ==> f(xs[j]).Success?;
        Failure(tail.error)
      else Success([head.value] + tail.value)
  }

  /** `[self._create_order_response(order) for order in orders]`: every order converted in
      order, or the error of the first that raises. */
  function ConvertAll(orders: seq<Dict>, parse: FloatParser): (r: Result<seq<OrderResponse>, Raised>)
    ensures r.Success? <==> forall i :: 0 <= i < |orders| ==> CreateOrderResponse(orders[i], parse).Success?
    ensures r.Success? ==> ConvertedFrom(r.value, orders, parse)
    ensures r.Failure? ==>
              exists i :: 0 <= i < |orders| && CreateOrderResponse(orders[i], parse) == Failure(r.error)
  {
    MapResults(orders, d => CreateOrderResponse(d, parse))
  }

  /** What a listing returned or raised, the symbols it asked the exchange about, the
      orders it fetched (newest first), and the order history afterwards. */
  datatype Listing = Listing(
    result: Result<seq<OrderResponse>, Raised>,
    queried: seq<string>,
    orders: seq<Dict>,
    book: OrderBook)

  /** `symbol` is truthy: present and not empty. */
  predicate SymbolGiven(symbol: Option<string>) {
    symbol.Some? && symbol.value != ""
  }

  /** The orders fetched for a listing: the given symbol's (its failure raises), or the
      default symbols' (their failures are skipped). */
  function Fetched(symbol: Option<string>, fetch: string -> Result<seq<Dict>, string>): (r: Result<seq<Dict>, string>)
    ensures SymbolGiven(symbol) ==> r == fetch(symbol.value)
    ensures !SymbolGiven(symbol) ==>
              r == Success(OrdersOf(fetch, "BTCUSDT") + OrdersOf(fetch, "ETHUSDT") + OrdersOf(fetch, "BNBUSDT"))
  {
    if SymbolGiven(symbol) then fetch(symbol.value)
    else
      DefaultFetch(fetch);
      Success(FetchAll(fetch, DefaultSymbols))
  }

  /** With no symbol, the listing gathers BTCUSDT's orders, then ETHUSDT's, then BNBUSDT's. */
  lemma DefaultFetch(fetch: string -> Result<seq<Dict>, string>)
    ensures FetchAll(fetch, DefaultSymbols) ==
              OrdersOf(fetch, "BTCUSDT") + OrdersOf(fetch, "ETHUSDT") + OrdersOf(fetch, "BNBUSDT")
  {
    assert DefaultSymbols == ["BTCUSDT"] + ["ETHUSDT"] + ["BNBUSDT"];
    FetchAllAppend(fetch, ["BTCUSDT"] + ["ETHUSDT"], ["BNBUSDT"]);
    FetchAllAppend(fetch, ["BTCUSDT"], ["ETHUSDT"]);
    FetchAllOfOne(fetch, "BTCUSDT");
    FetchAllOfOne(fetch, "ETHUSDT");
    FetchAllOfOne(fetch, "BNBUSDT");
  }

  /** No two orders carry the same id. */
  predicate DistinctKeys(orders: seq<Dict>) {
    forall i, j :: 0 <= i < j < |orders| ==> OrderKey(orders[i]) != OrderKey(orders[j])
  }

  /** When the ids are distinct, every recorded order is in the history under its id. */
  lemma RecordOrdersStoresAll(book: OrderBook, orders: seq<Dict>)
    ensures AllKeyed(orders) && DistinctKeys(orders) ==> forall i :: 0 <= i < |orders| ==>
              OrderKey(orders[i]).value in RecordOrders(book, orders).0
              && RecordOrders(book, orders).0[OrderKey(orders[i]).value] == orders[i]
  {
    if AllKeyed(orders) && DistinctKeys(orders) {
      forall i | 0 <= i < |orders|
        ensures OrderKey(orders[i]).value in RecordOrders(book, orders).0
                && RecordOrders(book, orders).0[OrderKey(orders[i]).value] == orders[i]
      {
        RecordOrdersStores(book, orders, i);
      }
    }
  }

  /** Recording the sorted orders in the history, then converting them. */
  function RecordAndConvert(book: OrderBook, queried: seq<string>, sorted: seq<Dict>, parse: FloatParser)
    : (out: Listing)
    ensures out.queried == queried && out.orders == sorted
    ensures out.book == RecordOrders(book, sorted).0
    ensures out.result.Failure? ==> out.result.error.BinanceApiException? && out.result.error.prefix == ListPrefix
    ensures !AllKeyed(sorted) ==> out.result == Failure(Wrap(ListPrefix, KeyError("orderId")))
    ensures out.result.Success? ==> AllKeyed(sorted) && ConvertedFrom(out.result.value, sorted, parse)
    ensures AllKeyed(sorted) ==>
              (out.result.Success? <==> forall i :: 0 <= i < |sorted| ==> CreateOrderResponse(sorted[i], parse).Success?)
    ensures AllKeyed(sorted) && out.result.Failure? ==>
              exists i :: 0 <= i < |sorted| && CreateOrderResponse(sorted[i], parse).Failure?
                          && out.result.error == Wrap(ListPrefix, CreateOrderResponse(sorted[i], parse).error)
    ensures out.result.Success? && DistinctKeys(sorted) ==>
              forall i :: 0 <= i < |sorted| ==>
                OrderKey(sorted[i]).value in out.book && out.book[OrderKey(sorted[i]).value] == sorted[i]
  {
    var recorded := RecordOrders(book, sorted);
    RecordOrdersStoresAll(book, sorted);
    if recorded.1.Some? then Listing(Failure(Wrap(ListPrefix, recorded.1.value)), queried, sorted, recorded.0)
    else Listing(ConvertAll(sorted, parse).MapFailure(e => Wrap(ListPrefix, e)), queried, sorted, recorded.0)
  }

  /** Sorting, recording and converting the fetched orders: Python's sort raises when two or
      more orders are compared by `time` values that are not all integers. */
  function ListFetched(book: OrderBook, queried: seq<string>, fetched: seq<Dict>, parse: FloatParser)
    : (out: Listing)
    ensures out.queried == queried
    ensures out.result.Failure? ==> out.result.error.BinanceApiException? && out.result.error.prefix == ListPrefix
    ensures |fetched| >= 2 && !IntegerTimes(fetched) ==> out.result == Failure(Wrap(ListPrefix, TypeError)) && out.book == book
    ensures !(|fetched| >= 2 && !IntegerTimes(fetched)) ==>
              out == RecordAndConvert(book, queried, SortNewestFirst(fetched), parse)
    ensures out.result.Success? ==>
              && multiset(out.orders) == multiset(fetched)
              && NewestFirst(out.orders)
              && out.book == RecordOrders(book, out.orders).0
              && AllKeyed(out.orders)
              && ConvertedFrom(out.result.value, out.orders, parse)
    ensures out.result.Success? && DistinctKeys(out.orders) ==>
              forall i :: 0 <= i < |out.orders| ==>
                OrderKey(out.orders[i]).value in out.book && out.book[OrderKey(out.orders[i]).value] == out.orders[i]
  {
    if |fetched| >= 2 && !IntegerTimes(fetched) then
      Listing(Failure(Wrap(ListPrefix, TypeError)), queried, [], book)
    else
      RecordAndConvert(book, queried, SortNewestFirst(fetched), parse)
  }

  /** `get_orders`. `client` is what decrypting the wallet's credentials and building the
      exchange client gave (or the text of what that raised), and `fetch(s)` is what
      `get_all_orders(symbol=s)` gave. */
  function GetOrders(
    book: OrderBook, reg: WalletService.Registry, walletId: string, symbol: Option<string>,
    client: Result<(), string>, fetch: string -> Result<seq<Dict>, string>, parse: FloatParser): (out: Listing)
    ensures WalletService.GetWallet(reg, walletId).None? ==>
              out == Listing(Failure(Wrap(ListPrefix, NotFoundException(walletId))), [], [], book)
    ensures WalletService.GetWallet(reg, walletId).Some? && client.Failure? ==>
              out == Listing(Failure(Wrap(ListPrefix, ClientError(client.error))), [], [], book)
    ensures WalletService.GetWallet(reg, walletId).Some? && client.Success? ==>
              out.queried == (if SymbolGiven(symbol) then [symbol.value] else DefaultSymbols)
    ensures WalletService.GetWallet(reg, walletId).Some? && client.Success? && Fetched(symbol, fetch).Failure? ==>
              out == Listing(Failure(Wrap(ListPrefix, ClientError(Fetched(symbol, fetch).error))), out.queried, [], book)
    ensures WalletService.GetWallet(reg, walletId).Some? && client.Success? && Fetched(symbol, fetch).Success? ==>
              out == ListFetched(book, out.queried, Fetched(symbol, fetch).value, parse)
    ensures out.result.Success? ==> WalletService.GetWallet(reg, walletId).Some? && client.Success?
    ensures out.result.Failure? ==> out.result.error.BinanceApiException? && out.result.error.prefix == ListPrefix
    ensures out.result.Success? ==>
              && Fetched(symbol, fetch).Success?
              && multiset(out.orders) == multiset(Fetched(symbol, fetch).value)
              && NewestFirst(out.orders)
              && out.book == RecordOrders(book, out.orders).0
              && AllKeyed(out.orders)
              && ConvertedFrom(out.result.value, out.orders, parse)
    ensures out.result.Success? && DistinctKeys(out.orders) ==>
              forall i :: 0 <= i < |out.orders| ==>
                OrderKey(out.orders[i]).value in out.book && out.book[OrderKey(out.orders[i]).value] == out.orders[i]
  {
    if WalletService.GetWallet(reg, walletId).None? then
      Listing(Failure(Wrap(ListPrefix, NotFoundException(walletId))), [], [], book)
    else if client.Failure? then
      Listing(Failure(Wrap(ListPrefix, ClientError(client.error))), [], [], book)
    else
      var queried := if SymbolGiven(symbol) then [symbol.value] else DefaultSymbols;
      match Fetched(symbol, fetch)
      case Failure(e) => Listing(Failure(Wrap(ListPrefix, ClientError(e))), queried, [], book)
      case Success(fetched) => ListFetched(book, queried, fetched, parse)
  }

  /** A listing succeeds when the wallet and client are there, the orders are fetched and can
      be sorted, and every fetched order has an id and converts: then it returns one response
      per fetched order, newest first, and records every one of them. */
  lemma {:induction false} GetOrdersSucceeds(
    book: OrderBook, reg: WalletService.Registry, walletId: string, symbol: Option<string>,
    fetch: string -> Result<seq<Dict>, string>, parse: FloatParser)
    requires WalletService.GetWallet(reg, walletId).Some?
    requires Fetched(symbol, fetch).Success?
    requires var fetched := Fetched(symbol, fetch).value;
             && (|fetched| < 2 || IntegerTimes(fetched))
             && AllKeyed(fetched)
             && forall i :: 0 <= i < |fetched| ==> CreateOrderResponse(fetched[i], parse).Success?
    ensures var out := GetOrders(book, reg, walletId, symbol, Success(()), fetch, parse);
            && out.result.Success?
            && |out.result.value| == |Fetched(symbol, fetch).value|
            && multiset(out.orders) == multiset(Fetched(symbol, fetch).value)
            && ConvertedFrom(out.result.value, out.orders, parse)
  {
    var fetched := Fetched(symbol, fetch).value;
    var sorted := SortNewestFirst(fetched);
    forall i | 0 <= i < |sorted|
      ensures OrderKey(sorted[i]).Some? && CreateOrderResponse(sorted[i], parse).Success?
    {
      assert sorted[i] in multiset(fetched);
      var j :| 0 <= j < |fetched| && fetched[j] == sorted[i];
    }
    assert AllKeyed(sorted);
  }
}

=== FILE: validation.dfy ===
/** Request validation errors: one entry per field whose validator rejected it,
    as pydantic collects them. */
module Validation {

  datatype FieldError = FieldError(field: string, message: string)

  /** The fields named in a list of errors. */
  function FailedFields(errors: seq<FieldError>): (r: set<string>)
    ensures forall e :: e in errors ==> e.field in r
    ensures forall f :: f in r ==> exists e :: e in errors && e.field == f
  {
    set e | e in errors :: e.field
  }
}

=== FILE: wallet_service.dfy ===
/** The wallet registry (app/core/wallet_service.py): wallets keyed by an id derived
    from the API key, credential-hiding views, and the non-zero balance listing.

    Fernet encryption and the exchange client are outside the model: the sealed
    credentials, the connection probe's outcome, the account reply and the clock
    reading are inputs. */
module WalletService {

  import opened Wrappers
  import Text
  import Encoding
  import opened Exchange

  /** A Fernet token; opaque to the model. */
  type Ciphertext = string

  datatype WalletRecord = WalletRecord(
    apiKey: Ciphertext,
    apiSecret: Ciphertext,
    name: string,
    useTestnet: bool,
    connectedAt: string)

  /** What `get_wallet` hands out: the stored record without its two credentials. */
  datatype WalletInfo = WalletInfo(name: string, useTestnet: bool, connectedAt: string)

  /** One entry of `list_wallets`. */
  datatype WalletSummary = WalletSummary(id: string, name: string, useTestnet: bool, connectedAt: string)

  /** The wallet dict: `ids` is its key order (insertion order, as Python dicts keep). */
  datatype Registry = Registry(ids: seq<string>, wallets: map<string, WalletRecord>)

  /** `ids` lists every key of `wallets` exactly once. */
  ghost predicate Valid(reg: Registry) {
    && (forall i, j :: 0 <= i < j < |reg.ids| ==> reg.ids[i] != reg.ids[j])
    && (forall i :: 0 <= i < |reg.ids| ==> reg.ids[i] in reg.wallets)
    && (forall id :: id in reg.wallets ==> id in reg.ids)
  }

  /** The registry of a freshly constructed service. */
  const EmptyRegistry := Registry([], map[])

  /** A new registry is well formed, holds no wallet and lists nothing. */
  lemma EmptyValid(id: string)
    ensures Valid(EmptyRegistry)
    ensures GetWallet(EmptyRegistry, id).None?
    ensures ListWallets(EmptyRegistry) == []
  {
  }

  // ---- the wallet id ----

  /** `api_key[-8:]`. */
  function IdSuffix(apiKey: string): string {
    Text.TakeLast(apiKey, 8)
  }

  /** `base64.b64encode(api_key[-8:].encode()).decode()`: Base64 text that decodes back
      to the UTF-8 bytes of the key's last eight characters. */
  function WalletIdFor(apiKey: string): (id: string)
    ensures Encoding.Base64Decode(id) == Some(Encoding.Utf8(IdSuffix(apiKey)))
  {
    Encoding.Base64RoundTrip(Encoding.Utf8(IdSuffix(apiKey)));
    Encoding.Base64(Encoding.Utf8(IdSuffix(apiKey)))
  }

  /** Two keys get the same wallet id exactly when their last eight characters agree:
      the rest of the key plays no part, and different suffixes never collide. */
  lemma WalletIdIffSameSuffix(k1: string, k2: string)
    ensures WalletIdFor(k1) == WalletIdFor(k2) <==> IdSuffix(k1) == IdSuffix(k2)
  {
    if WalletIdFor(k1) == WalletIdFor(k2) {
      Encoding.Base64Injective(Encoding.Utf8(IdSuffix(k1)), Encoding.Utf8(IdSuffix(k2)));
      Encoding.Utf8Injective(IdSuffix(k1), IdSuffix(k2));
    }
  }

  /** `f"Wallet-{wallet_id[:6]}"`. */
  function DefaultWalletName(id: string): (name: string)
    ensures |name| == 7 + (if |id| < 6 then |id| else 6)
    ensures name[..7] == "Wallet-" && name[7..] <= id
  {
    "Wallet-" + Text.Take(id, 6)
  }

  /** For a key of at least eight characters the id has at least twelve characters, so
      the default name is "Wallet-" followed by exactly six of them. */
  lemma DefaultNameShape(apiKey: string)
    requires |apiKey| >= 8
    ensures |WalletIdFor(apiKey)| >= 12
    ensures |DefaultWalletName(WalletIdFor(apiKey))| == 13
    ensures DefaultWalletName(WalletIdFor(apiKey)) == "Wallet-" + WalletIdFor(apiKey)[..6]
  {
    var n := |Encoding.Utf8(IdSuffix(apiKey))|;
    assert n >= 8;
    assert (n + 2) / 3 >= 3;
  }

  /** `wallet_name or f"Wallet-..."`: a missing or empty name falls back to the default. */
  function ChosenName(walletName: Option<string>, id: string): (r: string)
    ensures walletName.Some? && walletName.value != "" ==> r == walletName.value
    ensures walletName.None? || walletName.value == "" ==> r == DefaultWalletName(id)
  {
    if walletName.Some? && walletName.value != "" then walletName.value else DefaultWalletName(id)
  }

  // ---- storage ----

  /** `wallets[id] = record`: a new id goes to the end of the key order; an existing id
      keeps its place and has its record replaced. */
  function Store(reg: Registry, id: string, rec: WalletRecord): (r: Registry)
    ensures r.wallets == reg.wallets[id := rec]
    ensures id in reg.wallets ==> r.ids == reg.ids
    ensures id !in reg.wallets ==> r.ids == reg.ids + [id]
    ensures Valid(reg) ==> Valid(r)
  {
    if id in reg.wallets then Registry(reg.ids, reg.wallets[id := rec])
    else Registry(reg.ids + [id], reg.wallets[id := rec])
  }

  datatype WalletError =
    | WalletNotFound          // ValueError("Carteira não encontrada ou não conectada")
    | BinanceApiError(detail: string)

  const ConnectErrorPrefix := "Erro ao conectar à carteira: "
  const BalanceErrorPrefix := "Erro ao obter saldo da carteira: "

  /** `connect_wallet`. `probe` is what `test_connection()` gave (or the text of what it
      raised); `sealedKey` and `sealedSecret` are the Fernet tokens of the credentials;
      `now` is the clock reading. The result is the returned flag and the new registry. */
  function ConnectWallet(
    reg: Registry, apiKey: string, apiSecret: string, walletName: Option<string>, useTestnet: bool,
    probe: Result<bool, string>, sealedKey: Ciphertext, sealedSecret: Ciphertext, now: string)
    : (r: Result<(bool, Registry), WalletError>)
    ensures probe.Failure? ==> r == Failure(BinanceApiError(ConnectErrorPrefix + probe.error))
    ensures probe == Success(false) ==> r == Success((false, reg))
    ensures probe == Success(true) ==>
              && r.Success? && r.value.0
              && var id := WalletIdFor(apiKey);
              && var after := r.value.1.wallets;
              && after.Keys == reg.wallets.Keys + {id}
              && after[id] == WalletRecord(sealedKey, sealedSecret, ChosenName(walletName, id), useTestnet, now)
              && (forall other :: other in reg.wallets && other != id ==> after[other] == reg.wallets[other])
    ensures probe == Success(true) ==>
              r.value.1.ids == (if WalletIdFor(apiKey) in reg.wallets then reg.ids else reg.ids + [WalletIdFor(apiKey)])
    ensures Valid(reg) && r.Success? ==> Valid(r.value.1)
  {
    match probe
    case Failure(e) => Failure(BinanceApiError(ConnectErrorPrefix + e))
    case Success(connected) =>
      if !connected then Success((false, reg))
      else
        var id := WalletIdFor(apiKey);
        Success((true, Store(reg, id, WalletRecord(sealedKey, sealedSecret, ChosenName(walletName, id), useTestnet, now))))
  }

  /** Connecting a second key whose last eight characters match an existing wallet's
      replaces that wallet's record in place: no new wallet appears. */
  lemma SameSuffixOverwrites(
    reg: Registry, firstKey: string, apiKey: string, apiSecret: string, walletName: Option<string>,
    useTestnet: bool, sealedKey: Ciphertext, sealedSecret: Ciphertext, now: string)
    requires WalletIdFor(firstKey) in reg.wallets
    requires IdSuffix(apiKey) == IdSuffix(firstKey)
    ensures
      var r := ConnectWallet(reg, apiKey, apiSecret, walletName, useTestnet, Success(true), sealedKey, sealedSecret, now);
      && r.Success?
      && r.value.1.ids == reg.ids
      && r.value.1.wallets.Keys == reg.wallets.Keys
      && r.value.1.wallets[WalletIdFor(firstKey)].apiKey == sealedKey
  {
    WalletIdIffSameSuffix(apiKey, firstKey);
  }

  // ---- views ----

  /** `get_wallet`: `None` for an unknown id, otherwise the record without credentials. */
  function GetWallet(reg: Registry, id: string): (r: Option<WalletInfo>)
    ensures r.None? <==> id !in reg.wallets
    ensures r.Some? ==>
              && r.value.name == reg.wallets[id].name
              && r.value.useTestnet == reg.wallets[id].useTestnet
              && r.value.connectedAt == reg.wallets[id].connectedAt
  {
    if id !in reg.wallets then None
    else
      var rec := reg.wallets[id];
      Some(WalletInfo(rec.name, rec.useTestnet, rec.connectedAt))
  }

  /** A successful connection is visible through `get_wallet` under the derived id,
      with the name, network flag and time it was connected with. */
  lemma ConnectThenGet(
    reg: Registry, apiKey: string, apiSecret: string, walletName: Option<string>, useTestnet: bool,
    sealedKey: Ciphertext, sealedSecret: Ciphertext, now: string)
    ensures
      var r := ConnectWallet(reg, apiKey, apiSecret, walletName, useTestnet, Success(true), sealedKey, sealedSecret, now);
      var id := WalletIdFor(apiKey);
      && r.Success?
      && GetWallet(r.value.1, id) == Some(WalletInfo(ChosenName(walletName, id), useTestnet, now))
  {
  }

  function Summary(reg: Registry, id: string): WalletSummary
    requires id in reg.wallets
  {
    var rec := reg.wallets[id];
    WalletSummary(id, rec.name, rec.useTestnet, rec.connectedAt)
  }

  /** `list_wallets`: one credential-free entry per stored wallet, in key order. */
  function ListWallets(reg: Registry): (r: seq<WalletSummary>)
    requires Valid(reg)
    ensures |r| == |reg.ids|
    ensures forall i :: 0 <= i < |r| ==> r[i].id == reg.ids[i]
    ensures forall i :: 0 <= i < |r| ==>
              GetWallet(reg, r[i].id) == Some(WalletInfo(r[i].name, r[i].useTestnet, r[i].connectedAt))
  {
    seq(|reg.ids|, i requires 0 <= i < |reg.ids| => Summary(reg, reg.ids[i]))
  }

  lemma {:induction false} DistinctCard(s: seq<string>)
    requires forall i, j :: 0 <= i < j < |s| ==> s[i] != s[j]
    ensures |set x | x in s| == |s|
  {
    if |s| > 0 {
      var last := s[|s| - 1];
      var init := s[..|s| - 1];
      DistinctCard(init);
      assert (set x | x in s) == (set x | x in init) + {last};
      assert last !in init;
    }
  }

  /** Every stored wallet is listed exactly once. */
  lemma ListWalletsCoversRegistry(reg: Registry)
    requires Valid(reg)
    ensures |ListWallets(reg)| == |reg.wallets|
    ensures forall id :: id in reg.wallets ==> exists i :: 0 <= i < |ListWallets(reg)| && ListWallets(reg)[i].id == id
    ensures forall i, j :: 0 <= i < j < |ListWallets(reg)| ==> ListWallets(reg)[i].id != ListWallets(reg)[j].id
  {
    DistinctCard(reg.ids);
    assert (set x | x in reg.ids) == reg.wallets.Keys;
    forall id | id in reg.wallets
      ensures exists i :: 0 <= i < |ListWallets(reg)| && ListWallets(reg)[i].id == id
    {
      var i :| 0 <= i < |reg.ids| && reg.ids[i] == id;
      assert ListWallets(reg)[i].id == id;
    }
  }

  // ---- balances ----

  datatype AssetBalance = AssetBalance(asset: string, free: real, locked: real)

  /** Both amounts of `entry` are present and convert, and at least one is positive:
      the `free > 0 or locked > 0` test. */
  predicate Held(entry: Dict, parse: FloatParser) {
    && "free" in entry && "locked" in entry
    && ToFloat(entry["free"], parse).Some? && ToFloat(entry["locked"], parse).Some?
    && (ToFloat(entry["free"], parse).value > 0.0 || ToFloat(entry["locked"], parse).value > 0.0)
  }

  /** `b` is the balance built from `entry`: its asset text and its two converted amounts. */
  predicate BalanceOf(entry: Dict, parse: FloatParser, b: AssetBalance) {
    && "asset" in entry && entry["asset"] == Str(b.asset)
    && "free" in entry && ToFloat(entry["free"], parse) == Some(b.free)
    && "locked" in entry && ToFloat(entry["locked"], parse) == Some(b.locked)
  }

  /** One entry of `account_info["balances"]`: `Some(balance)` when it is kept,
      `None` when both amounts are zero or less, and a failure where the source raises
      (a missing key, an amount `float` rejects, or a kept entry whose asset is not text). */
  function ReadBalance(entry: Dict, parse: FloatParser): (r: Result<Option<AssetBalance>, string>)
    ensures r.Failure? <==>
              || "free" !in entry || "locked" !in entry
              || ToFloat(entry["free"], parse).None? || ToFloat(entry["locked"], parse).None?
              || (Held(entry, parse) && !("asset" in entry && entry["asset"].Str?))
    ensures r.Success? ==> (r.value.Some? <==> Held(entry, parse))
    ensures r.Success? && r.value.Some? ==> BalanceOf(entry, parse, r.value.value)
    ensures r.Success? && r.value.Some? ==> r.value.value.free > 0.0 || r.value.value.locked > 0.0
  {
    if "free" !in entry || "locked" !in entry then Failure("missing balance amount")
    else
      match (ToFloat(entry["free"], parse), ToFloat(entry["locked"], parse))
      case (Some(free), Some(locked)) =>
        if free > 0.0 || locked > 0.0 then
          if "asset" in entry && entry["asset"].Str? then Success(Some(AssetBalance(entry["asset"].s, free, locked)))
          else Failure("invalid asset")
        else Success(None)
      case _ => Failure("invalid balance amount")
  }

  /** Reads each item in order, keeping the values the reader yields and stopping at the
      first item it fails on. */
  function Collect<T, U>(xs: seq<T>, read: T -> Result<Option<U>, string>): (r: Result<seq<U>, string>)
    ensures r.Success? <==> forall i :: 0 <= i < |xs| ==> read(xs[i]).Success?
    ensures r.Success? ==> |r.value| <= |xs|
    ensures r.Success? ==> forall y :: y in r.value ==> exists i :: 0 <= i < |xs| && read(xs[i]) == Success(Some(y))
    decreases |xs|
  {
    if |xs| == 0 then Success([])
    else
      var head := read(xs[0]);
      var tail := Collect(xs[1..], read);
      assert forall i :: 1 <= i < |xs| ==> xs[i] == xs[1..][i - 1];
      if head.Failure? then Failure(head.error)
      else if tail.Failure? then Failure(tail.error)
      else
        var r := (if head.value.Some? then [head.value.value] else []) + tail.value;
        assert forall y :: y in tail.value ==> exists i :: 0 <= i < |xs| && read(xs[i]) == Success(Some(y)) by {
          forall y | y in tail.value ensures exists i :: 0 <= i < |xs| && read(xs[i]) == Success(Some(y)) {
            var k :| 0 <= k < |xs[1..]| && read(xs[1..][k]) == Success(Some(y));
            assert read(xs[k + 1]) == Success(Some(y));
          }
        }
        Success(r)
  }

  /** Nothing a read yields is lost: after a successful collection, every value some item
      reads to is among the collected ones. */
  lemma {:induction false} CollectKeepsEvery<T, U>(xs: seq<T>, read: T -> Result<Option<U>, string>)
    ensures Collect(xs, read).Success? ==>
              forall i :: 0 <= i < |xs| && read(xs[i]).Success? && read(xs[i]).value.Some? ==>
                read(xs[i]).value.value in Collect(xs, read).value
    decreases |xs|
  {
    if |xs| > 0 && Collect(xs, read).Success? {
      CollectKeepsEvery(xs[1..], read);
      var r := Collect(xs, read).value;
      var tail := Collect(xs[1..], read).value;
      var head := read(xs[0]);
      assert r == (if head.value.Some? then [head.value.value] else []) + tail;
      forall i | 0 <= i < |xs| && read(xs[i]).Success? && read(xs[i]).value.Some?
        ensures read(xs[i]).value.value in r
      {
        if i > 0 {
          assert xs[i] == xs[1..][i - 1];
        }
      }
    }
  }

  /** Collecting is done item by item: the result for a concatenation is the results of the
      parts, in order, and it fails exactly when a part fails. */
  lemma {:induction false} CollectAppend<T, U>(a: seq<T>, b: seq<T>, read: T -> Result<Option<U>, string>)
    ensures Collect(a + b, read).Success? <==> Collect(a, read).Success? && Collect(b, read).Success?
    ensures Collect(a + b, read).Success? ==>
              Collect(a + b, read).value == Collect(a, read).value + Collect(b, read).value
    decreases |a|
  {
    if |a| == 0 {
      assert a + b == b;
    } else {
      var ab := a + b;
      assert ab[0] == a[0];
      assert ab[1..] == a[1..] + b;
      CollectAppend(a[1..], b, read);
      var head := read(a[0]);
      if head.Success? {
        var hs := if head.value.Some? then [head.value.value] else [];
        var restA := Collect(a[1..], read);
        var restB := Collect(b, read);
        if restA.Success? && restB.Success? {
          assert Collect(ab, read) == Success(hs + (restA.value + restB.value));
          assert Collect(a, read) == Success(hs + restA.value);
          assert hs + (restA.value + restB.value) == (hs + restA.value) + restB.value;
        }
      }
    }
  }

  /** One step of a collecting loop: reading item `i` extends the collected prefix. */
  lemma {:induction false} CollectStep<T, U>(xs: seq<T>, i: nat, kept: seq<U>, read: T -> Result<Option<U>, string>)
    requires i < |xs|
    requires Collect(xs[..i], read) == Success(kept)
    requires read(xs[i]).Success?
    ensures Collect(xs[..i + 1], read) ==
              Success(kept + (if read(xs[i]).value.Some? then [read(xs[i]).value.value] else []))
  {
    CollectAppend(xs[..i], [xs[i]], read);
    assert [xs[i]][1..] == [];
    assert Collect([xs[i]][1..], read) == Success([]);
    var one := if read(xs[i]).value.Some? then [read(xs[i]).value.value] else [];
    assert one + [] == one;
    assert Collect([xs[i]], read) == Success(one);
    assert xs[..i + 1] == xs[..i] + [xs[i]];
    assert Collect(xs[..i + 1], read).Success?;
    assert Collect(xs[..i + 1], read).value == kept + one;
  }

  /** The balances kept from `entries`, in their order; the first unreadable entry fails the whole call. */
  function KeptBalances(entries: seq<Dict>, parse: FloatParser): (r: Result<seq<AssetBalance>, string>)
    ensures r.Success? <==> forall i :: 0 <= i < |entries| ==> ReadBalance(entries[i], parse).Success?
    ensures r.Success? ==> |r.value| <= |entries|
    ensures r.Success? ==> forall b :: b in r.value ==> b.free > 0.0 || b.locked > 0.0
    ensures r.Success? ==> forall b :: b in r.value ==>
              exists i :: 0 <= i < |entries| && Held(entries[i], parse) && BalanceOf(entries[i], parse, b)
    ensures r.Success? ==> forall i :: 0 <= i < |entries| && Held(entries[i], parse) ==>
              exists b :: b in r.value && BalanceOf(entries[i], parse, b)
  {
    var r := Collect(entries, e => ReadBalance(e, parse));
    HeldEntriesKept(entries, parse, r);
    r
  }

  /** Every held entry's balance is among the collected ones. */
  lemma {:induction false} HeldEntriesKept(entries: seq<Dict>, parse: FloatParser, r: Result<seq<AssetBalance>, string>)
    requires r == Collect(entries, e => ReadBalance(e, parse))
    ensures r.Success? ==> forall i :: 0 <= i < |entries| && Held(entries[i], parse) ==>
              exists b :: b in r.value && BalanceOf(entries[i], parse, b)
  {
    if r.Success? {
      var read := e => ReadBalance(e, parse);
      CollectKeepsEvery(entries, read);
      forall i | 0 <= i < |entries| && Held(entries[i], parse)
        ensures exists b :: b in r.value && BalanceOf(entries[i], parse, b)
      {
        var rb := ReadBalance(entries[i], parse);
        assert read(entries[i]) == rb;
        assert rb.Success?;
        assert rb.value.Some?;
        assert rb.value.value in r.value;
        assert BalanceOf(entries[i], parse, rb.value.value);
      }
    }
  }

  /** Filtering is done entry by entry: the balances of a concatenation are the
      balances of each part, in order, and a failure in either part is a failure. */
  lemma {:induction false} KeptBalancesAppend(a: seq<Dict>, b: seq<Dict>, parse: FloatParser)
    ensures KeptBalances(a + b, parse).Success? <==>
              KeptBalances(a, parse).Success? && KeptBalances(b, parse).Success?
    ensures KeptBalances(a + b, parse).Success? ==>
              KeptBalances(a + b, parse).value == KeptBalances(a, parse).value + KeptBalances(b, parse).value
  {
    CollectAppend(a, b, e => ReadBalance(e, parse));
  }

  /** A single entry yields its balance exactly when one of its amounts is positive. */
  lemma KeptBalancesOfOne(entry: Dict, parse: FloatParser)
    ensures KeptBalances([entry], parse).Success? <==> ReadBalance(entry, parse).Success?
    ensures ReadBalance(entry, parse).Success? ==>
              KeptBalances([entry], parse).value ==
                (if ReadBalance(entry, parse).value.Some? then [ReadBalance(entry, parse).value.value] else [])
  {
    assert [entry][1..] == [];
  }

  /** One step of the balance loop: reading entry `i` extends the kept prefix. */
  lemma {:induction false} KeptBalancesStep(entries: seq<Dict>, i: nat, kept: seq<AssetBalance>, parse: FloatParser)
    requires i < |entries|
    requires KeptBalances(entries[..i], parse) == Success(kept)
    requires ReadBalance(entries[i], parse).Success?
    ensures KeptBalances(entries[..i + 1], parse) ==
              Success(kept + (if ReadBalance(entries[i], parse).value.Some? then [ReadBalance(entries[i], parse).value.value] else []))
  {
    CollectStep(entries, i, kept, e => ReadBalance(e, parse));
  }

  /** `get_wallet_balance`. `account` is the `balances` list of the account reply, or the
      text of what decrypting the credentials, building the client or the request raised. */
  method GetWalletBalance(reg: Registry, id: string, account: Result<seq<Dict>, string>, parse: FloatParser)
    returns (r: Result<seq<AssetBalance>, WalletError>)
    ensures id !in reg.wallets ==> r == Failure(WalletNotFound)
    ensures id in reg.wallets && account.Failure? ==> r == Failure(BinanceApiError(BalanceErrorPrefix + account.error))
    ensures id in reg.wallets && account.Success? ==>
              (r.Success? <==> KeptBalances(account.value, parse).Success?)
    ensures id in reg.wallets && account.Success? && r.Success? ==> r.value == KeptBalances(account.value, parse).value
    ensures account.Success? && r.Success? ==> forall i :: 0 <= i < |account.value| && Held(account.value[i], parse) ==>
              exists b :: b in r.value && BalanceOf(account.value[i], parse, b)
    ensures account.Success? && r.Success? ==> forall b :: b in r.value ==>
              exists i :: 0 <= i < |account.value| && Held(account.value[i], parse) && BalanceOf(account.value[i], parse, b)
    ensures r.Failure? && id in reg.wallets ==> r.error.BinanceApiError? && BalanceErrorPrefix <= r.error.detail
    ensures id in reg.wallets && account.Success? && r.Failure? ==>
              exists i :: 0 <= i < |account.value| && ReadBalance(account.value[i], parse).Failure?
                          && r.error == BinanceApiError(BalanceErrorPrefix + ReadBalance(account.value[i], parse).error)
                          && forall j :: 0 <= j < i ==> ReadBalance(account.value[j], parse).Success?
  {
    if id !in reg.wallets {
      return Failure(WalletNotFound);
    }
    if account.Failure? {
      return Failure(BinanceApiError(BalanceErrorPrefix + account.error));
    }
    var entries := account.value;
    var balances: seq<AssetBalance> := [];
    var i := 0;
    while i < |entries|
      invariant 0 <= i <= |entries|
      invariant KeptBalances(entries[..i], parse) == Success(balances)
    {
      var read := ReadBalance(entries[i], parse);
      if read.Failure? {
        assert forall j :: 0 <= j < i ==> entries[..i][j] == entries[j];
        return Failure(BinanceApiError(BalanceErrorPrefix + read.error));
      }
      KeptBalancesStep(entries, i, balances, parse);
      balances := balances + (if read.value.Some? then [read.value.value] else []);
      i := i + 1;
    }
    assert entries[..i] == entries;
    return Success(balances);
  }
}

=== FILE: wrappers.dfy ===
/** Wrappers shared by every module of the model:
    `Option` for Python's `None`-or-value, `Result` for a value or a raised exception. */
module Wrappers {

  datatype Option<+T> = None | Some(value: T) {

    /** Returns the wrapped value, or `default` when there is none. */
    function GetOr(default: T): T {
      match this
      case Some(v) => v
      case None => default
    }
  }

  datatype Result<+R, +E> = Success(value: R) | Failure(error: E) {

    /** Keeps a success, and rewrites a failure with `wrap`. */
    function MapFailure<E2>(wrap: E -> E2): Result<R, E2> {
      match this
      case Success(v) => Success(v)
      case Failure(e) => Failure(wrap(e))
    }
  }
}
